=== FILE: README.md ===
# DragonBall QA data ingestion, modelled in Dafny

This project models the data-ingestion component of the DragonBall question-answering
project (`DataIngestion` in `src/components/data_ingestion.py`). The component has three
stages:

- **Scraping** (`initiate_data_scraping`) walks the paginated "all pages" index of the
  Dragon Ball fandom wiki. For every article link on an index page, it sanitises the
  link's `title` into a file name. It opens `<raw>/<title>.txt` for writing, fetches the
  article, and writes the text of the `p` and `ul` children of the article's content
  block. It then follows the last navigation link, until the index runs out.
- **Cleaning** (`initiate_data_cleaning`) reads every raw file line by line. It drops the
  lines that are exactly `"\n"` and collapses every whitespace run to one space. It writes
  the result under the same name into the clean directory.
- **Ingestion** (`initiate_data_ingestion`) is the entry point. The scraping call is
  disabled in the source, so it runs cleaning only and returns the clean directory.

The model replaces everything outside the component with data:

- The filesystem is a map from directory paths to maps from file names to contents (`FileSystem`).
- The reachable web is a map from URLs to pages. A URL missing from the map is a request
  that raises (`Scraper.Web`).
- A page is its status plus, for each CSS class, the first `div` of that class with its
  direct children and its `a` elements (`Pages`).

Cleaning and ingestion return an `Outcome`: the filesystem afterwards, plus the result or
the raised error. Scraping returns a `Crawl`: the filesystem afterwards, the article count
and how the crawl ended (halted, raised, or stopped on a non-200 first response). Files
written before an error stay written.

Modules, one per file:

- `Wrappers`: Option and Result.
- `Text`: characters, concatenation, non-whitespace content.
- `Lines`: text-mode `readlines`.
- `Normalize`: the per-line `re.sub(r"\s+", " ", …)` rule and the file-level cleaning.
- `Titles`: title sanitisation and file names.
- `FileSystem`: `makedirs` and file writes.
- `Common`: configuration and errors.
- `Pages`: the HTML reduced to what is read.
- `Scraper`, `Cleaner`, `Ingestion`: the three stages.

Four points where the code's behaviour differs from what one might expect:

- **Double space at line joins.** One might expect a single space where lines are joined
  after a dropped blank line; the code gives a double space. `writelines` adds no separator, and
  both the first line's newline and the next line's indentation become a space. For
  example `"Goku is a Saiyan.\n\n  raised on  Earth.\n"` cleans to
  `"Goku is a Saiyan.  raised on Earth. "`. `Normalize.JoinKeepsDoubleSpace` proves this.
  So "no double space" holds per cleaned line, not per file.
- **Raw files are overwritten, never appended.** They are opened with mode `'w'`. A file
  whose article fetch raises is left empty, because it was opened before the request.
- **Article status is never checked.** Only the first index response's status is
  checked. An article page answering with an error status is saved like any other page;
  of an article's fetch outcomes, only a request that raises stops the crawl.
- **Cleaning is idempotent only as a directory operation.** Re-running cleaning (raw and
  clean directories distinct) reproduces the same clean files
  (`Cleaner.CleanDirectoryTwice`). Cleaning a clean file again is a different matter: it
  can change it, because the join double spaces collapse.

## Model

| member | source | states |
|---|---|---|
| Common.DefaultConfig | src/components/data_ingestion.py:11-23 | The constructor chooses only the two directories. The fixed index URL lies on the site that article links are completed with, and the nav, body and content classes are distinct. |
| Text.IsSpaceAscii | src/components/data_ingestion.py:125 | On ASCII, `\s` matches exactly space, tab, line feed, vertical tab, form feed, carriage return and the separators 0x1C-0x1F, and never an ASCII letter or digit. |
| Text.ContainsAt | src/components/data_ingestion.py:85 | The `'Previous page' in text` test holds exactly when the marker starts at some position of the text. |
| Titles.Sanitize | src/components/data_ingestion.py:63 | The sanitised title holds only ASCII letters and digits, and it is a subsequence of the original title. |
| Titles.SanitizeCounts | src/components/data_ingestion.py:63 | Every ASCII letter and digit of the title survives as often as it occurs, and no other character survives. With `Sanitize`, this pins the result down to the in-order alphanumerics of the title. |
| Titles.SanitizeKeepsAlnumTitle | src/components/data_ingestion.py:63 | A title made only of ASCII letters and digits is unchanged. |
| Titles.SanitizeIdempotent | src/components/data_ingestion.py:63 | Sanitising twice is the same as sanitising once. |
| Titles.SanitizeAppend | src/components/data_ingestion.py:63 | Sanitising works character by character: it distributes over concatenation. |
| Titles.FileName | src/components/data_ingestion.py:66 | The raw file name ends in `.txt`, and its stem holds only ASCII letters and digits. |
| Titles.FileNameCollision | src/components/data_ingestion.py:63-66 | Two titles write the same raw file exactly when their sanitised forms are equal. |
| Titles.PunctuationCollides | src/components/data_ingestion.py:63-66 | "Goku (Xeno)" and "GokuXeno" both write `GokuXeno.txt`. |
| Lines.Translate | src/components/data_ingestion.py:122-123 | A text-mode read leaves no carriage return. It changes nothing in text without one, and it keeps every non-whitespace character. |
| Lines.TranslateCrLf | src/components/data_ingestion.py:122-123 | A `"\r\n"` pair reads as one `"\n"`. |
| Lines.TranslateCr | src/components/data_ingestion.py:122-123 | A lone `"\r"` reads as `"\n"`. |
| Lines.TranslateOther | src/components/data_ingestion.py:122-123 | Every character other than `"\r"` reads as itself. |
| Lines.TranslateAppend | src/components/data_ingestion.py:122-123 | Reading works piece by piece: text cut anywhere except between a `"\r"` and a following `"\n"` reads as its two halves read separately. With the three lemmas above, this fixes the translation of every text: cut off the first character, or the first `"\r\n"` pair, and repeat. |
| Lines.TranslateSample | src/components/data_ingestion.py:122-123 | `"a\r\n\r\nb"` reads as `"a\n\nb"`. |
| Lines.TranslateCrSample | src/components/data_ingestion.py:122-123 | A lone `"\r"` inside the text also reads as `"\n"`: `"a\rb"` reads as `"a\nb"`. |
| Lines.ReadLinesCr | src/components/data_ingestion.py:122-123 | A file with old Mac line endings reads as the two lines `"a\n"` and `"b"`. |
| Lines.ReadLinesCrLf | src/components/data_ingestion.py:122-123 | A file with Windows line endings reads as the lines `"a\n"`, `"\n"`, `"b"`. So its blank line is exactly `"\n"`, the line form that `Normalize.CleanLines` drops. |
| Lines.SplitLines | src/components/data_ingestion.py:123 | The lines join back to the text. Each line is non-empty, has a newline at most at its end, and every line but the last ends with one. |
| Lines.SplitLinesUnique | src/components/data_ingestion.py:123 | Any cut of a text into lines of that shape is the one `readlines` returns. |
| Lines.ReadLines | src/components/data_ingestion.py:122-123 | `readlines` returns lines that join back to the translated file contents. |
| Normalize.SkipSpaces | src/components/data_ingestion.py:125 | It removes exactly the leading whitespace run and keeps the rest as a suffix. |
| Normalize.Collapse | src/components/data_ingestion.py:125 | The substitution never lengthens a line, empties only the empty line, and keeps whether the line starts with whitespace. |
| Normalize.CollapseIsCollapsed | src/components/data_ingestion.py:125 | After the substitution, the only whitespace is the plain space, never two in a row. So no newline is left in a line. |
| Normalize.CollapseKeepsNonSpace | src/components/data_ingestion.py:125 | The substitution keeps every non-whitespace character, in order, and adds none. |
| Normalize.CollapseFixesCollapsed | src/components/data_ingestion.py:125 | A line that is already collapsed is unchanged. |
| Normalize.CollapseIdempotent | src/components/data_ingestion.py:125 | Applying the substitution again changes nothing. |
| Normalize.WhitespaceRunIsOneSpace | src/components/data_ingestion.py:125 | A maximal whitespace run of any length and any characters becomes exactly one space. |
| Normalize.CollapseAppend | src/components/data_ingestion.py:125 | The substitution works run by run. A line cut anywhere but inside a whitespace run collapses to its two collapsed halves. |
| Normalize.CleanLines | src/components/data_ingestion.py:125 | The comprehension returns as many lines as were read, minus the number of lines equal to `"\n"`. Nothing empty is produced from non-empty lines. |
| Normalize.CleanLinesAreCollapsed | src/components/data_ingestion.py:125 | Every cleaned line is collapsed. |
| Normalize.CleanLinesAppend | src/components/data_ingestion.py:125 | Lines are cleaned independently: cleaning distributes over concatenation. |
| Normalize.CleanLinesAt | src/components/data_ingestion.py:125 | Every line other than `"\n"` survives, collapsed. It sits at its old position minus the number of `"\n"` lines before it, so relative order is kept and nothing else is dropped. |
| Normalize.CleanLinesKeepsNonSpace | src/components/data_ingestion.py:125 | Cleaning the lines keeps the file's non-whitespace characters, in order. |
| Normalize.CleanFile | src/components/data_ingestion.py:122-128 | A cleaned file has no newline, its only whitespace is the plain space, and it keeps exactly the raw file's non-whitespace characters, in order. |
| Normalize.WhitespaceOnlyLineKept | src/components/data_ingestion.py:125 | A whitespace-only line other than `"\n"` is not dropped; it becomes a single space. |
| Normalize.JoinKeepsDoubleSpace | src/components/data_ingestion.py:122-128 | A line, a blank line, then an indented line clean to the two collapsed lines joined by a double space. |
| Pages.BlockText | src/components/data_ingestion.py:71-73 | The text written for an article comes only from its `p` and `ul` children: a non-empty text means some such child has non-empty text. |
| Pages.BlockTextAppend | src/components/data_ingestion.py:71-73 | The text of a content block is built child by child: it distributes over concatenation. |
| Pages.OtherChildrenIgnored | src/components/data_ingestion.py:71-73 | Children other than `p` and `ul` elements contribute nothing: removing one leaves the text unchanged. |
| Pages.TextBlockIncluded | src/components/data_ingestion.py:71-73 | The text of each `p` or `ul` child appears in the file, right after the text of the children before it. |
| Pages.ArticleText | src/components/data_ingestion.py:69-70 | A page without a content block contributes the empty text. |
| FileSystem.MakeDirs | src/components/data_ingestion.py:55 | `makedirs(exist_ok=True)` adds the directory, keeps every existing directory as it was, and creates a new one empty. |
| FileSystem.WriteFile | src/components/data_ingestion.py:66 | Opening with `'w'` and writing leaves exactly the written contents in that file. Every other file and directory is unchanged. |
| Scraper.SaveArticle | src/components/data_ingestion.py:62-73 | One link touches only the raw directory. It succeeds exactly when both attributes are present and the article can be fetched. A missing attribute raises before anything is written. |
| Scraper.SaveArticleWrites | src/components/data_ingestion.py:66-73 | With both attributes present, the link's raw file is overwritten: with the article's text when the fetch succeeds, and empty when it raises. |
| Scraper.ProcessArticles | src/components/data_ingestion.py:62-77 | The loop over a page's links changes only the raw directory's files and never lowers the count. |
| Scraper.FetchablePrefix | src/components/data_ingestion.py:62-67 | The number of links before the first one that cannot be saved: all links before it can be saved, and that one cannot. |
| Scraper.ProcessArticlesOutcome | src/components/data_ingestion.py:62-75 | The loop counts exactly the links before the first one that cannot be saved. It stops there with an error, and succeeds exactly when no such link exists. |
| Scraper.ProcessArticlesSucceeds | src/components/data_ingestion.py:62-75 | The loop succeeds exactly when every link can be saved, and then it counts every link. |
| Scraper.ProcessArticlesFiles | src/components/data_ingestion.py:62-73 | Only files named after the links are created or changed. When no link fails, every one of those files exists. |
| Scraper.LaterArticleWins | src/components/data_ingestion.py:63-73 | When every link is saved, a link's file holds that link's article text, unless a later link has the same sanitised title. |
| Scraper.NavStep | src/components/data_ingestion.py:79-88 | The next index page is always requested under `base_url`. The rule itself fails only on a missing `href` of the last link; a failed request for the next page (line 88) is raised by `Scraper.VisitPage` as `FetchFailed`. |
| Scraper.NavStepRule | src/components/data_ingestion.py:79-88 | The crawl stops exactly when the nav block is absent, has no links, or its last link's text contains "Previous page". Otherwise it follows `base_url` plus the last link's `href`, and raises when that attribute is missing. |
| Scraper.VisitPage | src/components/data_ingestion.py:56-89 | One pass of the loop changes only raw files and never lowers the count. It ends the crawl without error or with an error, or moves on from a page that has an article-list block. |
| Scraper.VisitPageSteps | src/components/data_ingestion.py:56-89 | A pass moves on exactly when the page has an article-list block, all its links are saved, and its navigation leads to a reachable page. It halts cleanly exactly when all links are saved and the page is a stopping page. |
| Scraper.CrawlFrom | src/components/data_ingestion.py:56-89 | The loop changes only raw files, never lowers the count, and never ends as "not connected". Given at least one step, it exhausts its step bound only on a page with an article-list block. |
| Scraper.Scrape | src/components/data_ingestion.py:43-97 | It returns quietly, writing nothing and counting nothing, exactly when the first index response is not 200. A first request that raises writes nothing. Otherwise the raw directory exists afterwards, and no other directory changes. |
| Scraper.ProcessArticlesAppend | src/components/data_ingestion.py:62-77 | Saving two runs of links one after the other is saving their concatenation. |
| Scraper.CrawlWalkStep | src/components/data_ingestion.py:62-89 | On a page of a walk that is not the last, one pass saves every link and continues from the next page. |
| Scraper.CrawlWalkLast | src/components/data_ingestion.py:62-86 | On the last page of a walk, one pass saves every link and halts. |
| Scraper.CrawlFollowsWalk | src/components/data_ingestion.py:56-89 | Along a chain of index pages that the crawl walks without error, the crawl halts. Its count is the total number of article links on those pages, and the raw files are those of saving all of them in order. |
| Scraper.CrawlWalkNeedsFuel | src/components/data_ingestion.py:56-89 | A crawl allowed fewer steps than the walk has pages does not halt on its own. |
| Scraper.HaltedCrawlWalks | src/components/data_ingestion.py:56-89 | Every crawl that halts without error has walked such a chain of pages from its start. |
| Scraper.CrawlFuelMonotone | src/components/data_ingestion.py:56-89 | Once the crawl ends on its own, a larger step bound gives the same result. |
| Cleaner.CleanDirectory | src/components/data_ingestion.py:116-140 | Cleaning fails exactly when the raw directory is missing (and is not the clean directory). It returns both paths. Every raw file gets its cleaned version under the same name, other clean files are untouched, and only the clean directory changes. |
| Cleaner.CleanDirectoryKeepsText | src/components/data_ingestion.py:119-128 | Each clean file keeps exactly its raw file's non-whitespace characters, has no newline, and holds only plain spaces as whitespace. |
| Cleaner.CleanDirectoryTwice | src/components/data_ingestion.py:119-128 | With distinct directories, cleaning again changes nothing. |
| Cleaner.WriteEachAt | src/components/data_ingestion.py:120-128 | After writing a sequence of files, a name holds its rewritten file if it was written, and its old contents otherwise. |
| Cleaner.WriteEachAll | src/components/data_ingestion.py:120-128 | Writing every file of a complete listing, in any order, gives the whole directory rewritten over the old contents. |
| Cleaner.RewriteListed | src/components/data_ingestion.py:120-128 | The loop over a listing gives the same directory whatever the listing order. This holds even when the raw and clean paths are the same directory, because each file is read before it is overwritten. |
| Cleaner.CleanListed | src/components/data_ingestion.py:116-140 | The step-by-step cleaning computes what `CleanDirectory` states, for every order `os.listdir` may return. |
| Ingestion.Ingest | src/components/data_ingestion.py:25-41 | Ingestion runs only cleaning, with its effect on the filesystem. It returns the clean path, and it fails exactly when cleaning does, with cleaning's error. |
| Ingestion.IngestStable | src/components/data_ingestion.py:28-37 | With distinct directories, ingestion leaves the raw files alone, and running it again changes nothing. |
| Ingestion.ScrapeThenIngest | src/components/data_ingestion.py:25-37 | After a scrape that got past its first request, ingestion cannot fail. It leaves the cleaned version of every scraped file in the clean directory. |

## Left out

- HTTP and HTML parsing (`requests`, BeautifulSoup). The web is a map from URLs to
  already-parsed pages. Any request failure is the URL being absent, and the text of
  elements is given rather than computed by `get_text()`.
- Logging and the every-500 progress messages, which have no effect on results.
- `CustomException` wrapping. The model keeps the wrapped error itself; the traceback
  context added by the wrapper is not modelled.
- File encodings and undecodable bytes. File contents are strings, so a read that raises
  on invalid UTF-8 is not modelled.
- Python's `\s` is modelled by `Text.IsSpace`, the list of code points for which
  `str.isspace()` holds. Its agreement with the regular-expression engine is taken as
  given.
- Paths are taken as canonical names: two different path strings are two different,
  non-nested directories. Spellings of one directory (`"artifacts/raw"` and
  `"artifacts/raw/"`, or `..` and symbolic links) and a clean directory nested inside the
  raw one are not modelled. For such paths the source cleans in place, and the claims of
  `Cleaner.CleanDirectory`, `Cleaner.CleanDirectoryTwice` and `Ingestion.IngestStable` about
  distinct directories do not apply.
- Writes assume a POSIX line separator (`os.linesep == "\n"`). Files are opened in text
  mode `'w'` without `newline=`, so on Windows every `"\n"` written becomes `"\r\n"` on
  disk. The contents stated by `FileSystem.WriteFile`, `Scraper.SaveArticleWrites` and
  `Scraper.LaterArticleWins` are the POSIX ones. Cleaned output would be the same either
  way, because reading maps `"\r\n"` back to `"\n"` (`Lines.TranslateCrLf`).
- Entries of the raw directory that are themselves directories (opening them raises), and
  failures of `open` or `makedirs` for permission reasons.
- Scraper.CrawlFrom: the `while True` loop has no bound in the source. The model gives it
  a step bound (`fuel`), and `OutOfFuel` only says that bound was reached.
  `CrawlWalkNeedsFuel` and `CrawlFuelMonotone` show that the bound changes nothing once it
  is at least the number of pages walked.
- Scraper.Scrape: the scrape's return value (the two paths, or `None` on a non-200 first
  response) is represented by how the crawl ended, not by a returned tuple.
- `app.py` (Flask request handler), `src/pipelines/prediction_pipeline.py` (wrapper over a
  third-party question-answering model), `src/utils.py` (pickle and file-existence
  helpers) and `main.py` (a script calling a training pipeline whose source is not part
  of this model) are serving glue or I/O and are not modelled.

=== FILE: cleaner.dfy ===
/** The cleaning stage: every file of the raw directory is read, normalised line by line
    and written under the same name into the clean directory. */
module Cleaner {
  import opened Wrappers
  import opened Text
  import opened FileSystem
  import opened Common
  import opened Normalize

  /** Every file of a directory passed through `f`, under the same names. */
  function Rewritten(source: Dir, f: string -> string): (r: Dir)
    ensures r.Keys == source.Keys
  {
    map n | n in source :: f(source[n])
  }

  /** The cleaned versions of a directory's files, under the same names. */
  function CleanedFiles(raw: Dir): Dir {
    Rewritten(raw, CleanFile)
  }

  /** `initiate_data_cleaning`: create the clean directory, list the raw directory (which
      raises when it does not exist), and write each file's cleaned text under its own name
      in the clean directory, overwriting a file of that name and leaving other clean files
      alone. Returns the two paths. */
  function CleanDirectory(cfg: IngestionConfig, fs: Fs): (r: Outcome<(Path, Path)>)
    ensures r.result.Success? <==> cfg.rawPath in fs || cfg.rawPath == cfg.cleanPath
    ensures r.result.Success? ==> r.result.value == (cfg.rawPath, cfg.cleanPath)
    ensures r.result.Failure? ==> r.result.error == MissingDirectory(cfg.rawPath) && r.fs == MakeDirs(fs, cfg.cleanPath)
    ensures r.fs.Keys == fs.Keys + {cfg.cleanPath}
    ensures forall p :: p in fs && p != cfg.cleanPath ==> r.fs[p] == fs[p]
    ensures r.result.Success? ==>
      var d, raw := r.fs[cfg.cleanPath], r.fs[cfg.rawPath];
      var before := if cfg.cleanPath in fs then fs[cfg.cleanPath] else map[];
      var source := if cfg.rawPath in fs then fs[cfg.rawPath] else map[];
      && d.Keys == before.Keys + source.Keys
      && (forall n :: n in source ==> d[n] == CleanFile(source[n]))
      && (forall n :: n in before && n !in source ==> d[n] == before[n])
  {
    var created := MakeDirs(fs, cfg.cleanPath);
    if cfg.rawPath !in created then Outcome(created, Failure(MissingDirectory(cfg.rawPath)))
    else
      var cleaned := created[cfg.cleanPath] + CleanedFiles(created[cfg.rawPath]);
      Outcome(created[cfg.cleanPath := cleaned], Success((cfg.rawPath, cfg.cleanPath)))
  }

  /** Cleaning changes only whitespace: each clean file holds exactly the non-whitespace
      characters of its raw file, in order, has no line break, and its only whitespace
      character is the plain space. */
  lemma CleanDirectoryKeepsText(cfg: IngestionConfig, fs: Fs, n: Name)
    requires cfg.rawPath in fs && n in fs[cfg.rawPath]
    ensures var d := CleanDirectory(cfg, fs).fs[cfg.cleanPath];
      && n in d
      && NonSpace(d[n]) == NonSpace(fs[cfg.rawPath][n])
      && forall i :: 0 <= i < |d[n]| ==> d[n][i] != '\n' && (IsSpace(d[n][i]) ==> d[n][i] == ' ')
  {
  }

  /** Writing the same files over a directory a second time changes nothing. This and the
      next lemma are stated apart so that the map reasoning does not meet the cleaned files. */
  lemma RewriteSame(d: Dir, c: Dir)
    ensures (d + c) + c == d + c
  {
  }

  /** Writing a directory back to its own path changes nothing. */
  lemma StoreSame(fs: Fs, p: Path)
    requires p in fs
    ensures fs[p := fs[p]] == fs
  {
  }

  /** With distinct directories, cleaning a second time changes nothing: the raw files are
      untouched and their cleaned versions are written again. */
  lemma CleanDirectoryTwice(cfg: IngestionConfig, fs: Fs)
    requires cfg.rawPath != cfg.cleanPath
    ensures var once := CleanDirectory(cfg, fs).fs;
      CleanDirectory(cfg, once).fs == once
  {
    var once := CleanDirectory(cfg, fs).fs;
    if cfg.rawPath in fs {
      var created := MakeDirs(fs, cfg.cleanPath);
      var c := CleanedFiles(created[cfg.rawPath]);
      var d := created[cfg.cleanPath];
      assert once == created[cfg.cleanPath := d + c];
      assert MakeDirs(once, cfg.cleanPath) == once;
      assert once[cfg.rawPath] == created[cfg.rawPath];
      RewriteSame(d, c);
      StoreSame(once, cfg.cleanPath);
    }
  }

  /** The files `names` of `source`, passed through `f` and written one after the other
      into `out`. */
  function WriteEach(out: Dir, source: Dir, names: seq<Name>, f: string -> string): Dir
    requires forall k :: 0 <= k < |names| ==> names[k] in source
    decreases |names|
  {
    if names == [] then out
    else
      var last := names[|names| - 1];
      WriteEach(out, source, names[..|names| - 1], f)[last := f(source[last])]
  }

  /** After the writes, a name is present when it was before or was written, and holds the
      rewritten file when it was written and its old contents otherwise. */
  lemma {:induction false} WriteEachAt(out: Dir, source: Dir, names: seq<Name>, f: string -> string, n: Name)
    requires forall k :: 0 <= k < |names| ==> names[k] in source
    ensures var w := WriteEach(out, source, names, f);
      && (n in w <==> n in out || n in names)
      && (n in names ==> w[n] == f(source[n]))
      && (n in out && n !in names ==> w[n] == out[n])
    decreases |names|
  {
    if names != [] {
      var front := names[..|names| - 1];
      WriteEachAt(out, source, front, f, n);
      assert names == front + [names[|names| - 1]];
    }
  }

  /** Writing every file of a complete listing, in any order, gives the whole directory
      rewritten over the old contents of `out`. */
  lemma WriteEachAll(out: Dir, source: Dir, names: seq<Name>, f: string -> string)
    requires forall n :: n in source <==> n in names
    ensures WriteEach(out, source, names, f) == out + Rewritten(source, f)
  {
    var w, c := WriteEach(out, source, names, f), Rewritten(source, f);
    forall n ensures (n in w <==> n in out + c) && (n in w ==> w[n] == (out + c)[n]) {
      WriteEachAt(out, source, names, f, n);
    }
  }

  /** A listing of directory `p`: every file name once, in some order. */
  ghost predicate IsListing(fs: Fs, p: Path, listing: seq<Name>) {
    && (forall i, j :: 0 <= i < j < |listing| ==> listing[i] != listing[j])
    && (forall n :: n in listing <==> p in fs && n in fs[p])
  }

  /** The `for` loop over the listing of `raw`: read each listed file, pass it through `f`
      and write the result under the same name into `clean`. The listing is taken once,
      before the loop; when the two paths are the same directory every file is still read
      before it is overwritten, because the listing has no repeats. The result does not
      depend on the order of the listing. */
  method RewriteListed(fs: Fs, raw: Path, clean: Path, listing: seq<Name>, f: string -> string) returns (r: Fs)
    requires raw in fs && clean in fs && IsListing(fs, raw, listing)
    ensures r == fs[clean := fs[clean] + Rewritten(fs[raw], f)]
  {
    var source, out := fs[raw], fs[clean];
    var i := 0;
    while i < |listing|
      invariant 0 <= i <= |listing|
      invariant out == WriteEach(fs[clean], source, listing[..i], f)
      decreases |listing| - i
    {
      var name, done := listing[i], listing[..i];
      var text;
      if raw == clean {
        assert name !in done by {
          forall k | 0 <= k < i ensures done[k] != name {
            assert done[k] == listing[k];
          }
        }
        WriteEachAt(fs[clean], source, done, f, name);
        text := out[name];
      } else {
        text := source[name];
      }
      out := out[name := f(text)];
      assert listing[..i + 1][..i] == done;
      i := i + 1;
    }
    assert listing[..i] == listing;
    WriteEachAll(fs[clean], source, listing, f);
    r := fs[clean := out];
  }

  /** `initiate_data_cleaning` step by step, for any order `os.listdir` may return: it
      computes what `CleanDirectory` states. */
  method CleanListed(cfg: IngestionConfig, fs: Fs, listing: seq<Name>) returns (r: Outcome<(Path, Path)>)
    requires IsListing(MakeDirs(fs, cfg.cleanPath), cfg.rawPath, listing)
    ensures r == CleanDirectory(cfg, fs)
  {
    var created := MakeDirs(fs, cfg.cleanPath);
    if cfg.rawPath !in created {
      return Outcome(created, Failure(MissingDirectory(cfg.rawPath)));
    }
    var written := RewriteListed(created, cfg.rawPath, cfg.cleanPath, listing, CleanFile);
    r := Outcome(written, Success((cfg.rawPath, cfg.cleanPath)));
  }
}

=== FILE: common.dfy ===
/** Configuration and failures shared by the scraping and cleaning stages. */
module Common {
  import opened Wrappers
  import opened FileSystem

  /** The pipeline's configuration: where raw and clean files go, where crawling starts,
      how article links are completed, and the classes of the three `div` blocks read. */
  datatype IngestionConfig = IngestionConfig(
    rawPath: Path,
    cleanPath: Path,
    scrapingUrl: string,
    baseUrl: string,
    navTag: string,
    bodyTag: string,
    outputTag: string)

  /** The configuration built by the component's constructor: only the two directories are
      chosen by the caller, the rest are the fandom wiki's fixed values. The index starts on
      the same site the article links are completed with, and the three blocks read are
      told apart by distinct classes. */
  function DefaultConfig(rawPath: Path, cleanPath: Path): (r: IngestionConfig)
    ensures r.rawPath == rawPath && r.cleanPath == cleanPath
    ensures |r.baseUrl| < |r.scrapingUrl| && r.scrapingUrl[..|r.baseUrl|] == r.baseUrl
    ensures r.navTag != r.bodyTag && r.bodyTag != r.outputTag && r.navTag != r.outputTag
  {
    IngestionConfig(
      rawPath, cleanPath,
      "https://dragonball.fandom.com/wiki/Special:AllPages",
      "https://dragonball.fandom.com",
      "mw-allpages-nav",
      "mw-allpages-body",
      "mw-parser-output")
  }

  /** The exceptions the source can raise and wrap. */
  datatype Error =
    | FetchFailed(url: string)         // `requests.get` raised: the URL cannot be fetched
    | MissingAttribute(name: string)   // `tag["title"]` or `tag["href"]` raised KeyError
    | MissingDirectory(path: Path)     // `os.listdir` raised on a missing directory

  /** The filesystem after a stage ran, together with its return value or the error it raised.
      Files written before an error stay written. */
  datatype Outcome<T> = Outcome(fs: Fs, result: Result<T, Error>)
}

=== FILE: filesystem.dfy ===
/** Directories as maps from file name to contents. Only the directories the pipeline
    touches appear; a path absent from the map does not exist. */
module FileSystem {

  type Path = string
  type Name = string
  type Dir = map<Name, string>
  type Fs = map<Path, Dir>

  /** `os.makedirs(path, exist_ok=True)`: creates an empty directory if it is missing and
      leaves an existing one (and everything else) alone. */
  function MakeDirs(fs: Fs, path: Path): (r: Fs)
    ensures r.Keys == fs.Keys + {path}
    ensures forall p :: p in fs ==> r[p] == fs[p]
    ensures path !in fs ==> r[path] == map[]
  {
    if path in fs then fs else fs[path := map[]]
  }

  /** Opening `dir/name` with mode 'w' and writing `contents`: the file is created or
      truncated, and no other file or directory changes. */
  function WriteFile(fs: Fs, dir: Path, name: Name, contents: string): (r: Fs)
    requires dir in fs
    ensures r.Keys == fs.Keys
    ensures name in r[dir] && r[dir][name] == contents
    ensures r[dir].Keys == fs[dir].Keys + {name}
    ensures forall n :: n in fs[dir] && n != name ==> r[dir][n] == fs[dir][n]
    ensures forall p :: p in fs && p != dir ==> r[p] == fs[p]
  {
    fs[dir := fs[dir][name := contents]]
  }
}

=== FILE: ingestion.dfy ===
/** The component's entry point, and how it composes with the scraping stage. */
module Ingestion {
  import opened Wrappers
  import opened FileSystem
  import opened Common
  import opened Normalize
  import opened Scraper
  import opened Cleaner

  /** `initiate_data_ingestion`: the scraping call is disabled, so it runs the cleaning stage
      alone and returns the clean directory's path. An error of the cleaning stage is
      re-raised wrapped; the model keeps the wrapped error. */
  function Ingest(cfg: IngestionConfig, fs: Fs): (r: Outcome<Path>)
    ensures r.result.Success? <==> cfg.rawPath in fs || cfg.rawPath == cfg.cleanPath
    ensures r.result.Success? ==> r.result.value == cfg.cleanPath
    ensures r.result.Failure? ==> r.result.error == MissingDirectory(cfg.rawPath)
    ensures r.fs == CleanDirectory(cfg, fs).fs
  {
    var cleaned := CleanDirectory(cfg, fs);
    match cleaned.result
    case Failure(e) => Outcome(cleaned.fs, Failure(e))
    case Success(_) => Outcome(cleaned.fs, Success(cfg.cleanPath))
  }

  /** With distinct directories ingestion leaves the raw files alone, and running it again
      changes nothing. */
  lemma IngestStable(cfg: IngestionConfig, fs: Fs)
    requires cfg.rawPath != cfg.cleanPath
    ensures var once := Ingest(cfg, fs).fs;
      && (cfg.rawPath in fs ==> cfg.rawPath in once && once[cfg.rawPath] == fs[cfg.rawPath])
      && Ingest(cfg, once).fs == once
  {
    CleanDirectoryTwice(cfg, fs);
  }

  /** Once scraping has got past the first request, the raw directory exists, so a following
      ingestion cannot fail, and it leaves the cleaned version of every scraped file in the
      clean directory, whatever page the crawl stopped on. */
  lemma ScrapeThenIngest(cfg: IngestionConfig, web: Web, fs: Fs, fuel: nat)
    requires cfg.scrapingUrl in web && web[cfg.scrapingUrl].status == 200
    ensures var scraped := Scrape(cfg, web, fs, fuel).fs;
      var r := Ingest(cfg, scraped);
      && r.result == Success(cfg.cleanPath)
      && forall n :: n in scraped[cfg.rawPath] ==>
           n in r.fs[cfg.cleanPath] && r.fs[cfg.cleanPath][n] == CleanFile(scraped[cfg.rawPath][n])
  {
  }
}

=== FILE: lines.dfy ===
/** Reading a text file the way `open(path, 'r').readlines()` does. */
module Lines {
  import opened Text

  /** Universal-newline translation done by text-mode reads: "\r\n" and a lone "\r" both read as "\n". */
  function Translate(s: string): (r: string)
    ensures forall i :: 0 <= i < |r| ==> r[i] != '\r'
    ensures (forall i :: 0 <= i < |s| ==> s[i] != '\r') ==> r == s
    ensures NonSpace(r) == NonSpace(s)
    decreases |s|
  {
    if s == [] then []
    else if s[0] == '\r' then "\n" + Translate(if |s| > 1 && s[1] == '\n' then s[2..] else s[1..])
    else [s[0]] + Translate(s[1..])
  }

  /** Text-mode reading turns a "\r\n" pair into one "\n". */
  lemma TranslateCrLf()
    ensures Translate("\r\n") == "\n"
  {
    assert "\r\n"[2..] == [];
  }

  /** Text-mode reading turns a lone "\r" into "\n". */
  lemma TranslateCr()
    ensures Translate("\r") == "\n"
  {
    assert "\r"[1..] == [];
  }

  /** Every other character reads as itself. */
  lemma TranslateOther(c: char)
    requires c != '\r'
    ensures Translate([c]) == [c]
  {
    assert [c][1..] == [];
  }

  /** Translation works piece by piece, as long as the cut does not separate a "\r" from a
      following "\n". */
  lemma {:induction false} TranslateAppend(a: string, b: string)
    requires a == [] || a[|a| - 1] != '\r' || b == [] || b[0] != '\n'
    ensures Translate(a + b) == Translate(a) + Translate(b)
    decreases |a|
  {
    if a == [] {
      assert a + b == b;
    } else {
      var ab := a + b;
      var k := if a[0] == '\r' && |a| > 1 && a[1] == '\n' then 2 else 1;
      var ra, h := a[k..], if a[0] == '\r' then "\n" else [a[0]];
      assert ab[k..] == ra + b;
      assert ra == [] || ra[|ra| - 1] == a[|a| - 1];
      assert |a| == 1 && b != [] ==> ab[1] == b[0];
      assert |a| > 1 ==> ab[1] == a[1];
      TranslateStep(ab, k);
      TranslateAppend(ra, b);
      TranslateStep(a, k);
      ConcatAssoc(h, Translate(ra), Translate(b));
    }
  }

  /** One step of translation: the first character, or the "\r\n" pair, and the rest. */
  lemma TranslateStep(s: string, k: nat)
    requires s != [] && k == (if s[0] == '\r' && |s| > 1 && s[1] == '\n' then 2 else 1)
    ensures Translate(s) == (if s[0] == '\r' then "\n" else [s[0]]) + Translate(s[k..])
  {
  }

  /** "a\r\n\r\nb" reads as "a\n\nb": each "\r\n" pair becomes one "\n". */
  lemma TranslateSample()
    ensures Translate("a\r\n\r\nb") == "a\n\nb"
  {
    var crlf := "\r\n";
    TranslateOther('a');
    TranslateOther('b');
    TranslateCrLf();
    TranslateAppend(crlf, "b");
    assert crlf + "b" == "\r\nb";
    TranslateAppend(crlf, "\r\nb");
    assert crlf + "\r\nb" == "\r\n\r\nb";
    TranslateAppend("a", "\r\n\r\nb");
    assert "a" + "\r\n\r\nb" == "a\r\n\r\nb";
  }

  /** A file written with Windows line endings reads as the same lines with "\n" endings:
      "a\r\n\r\nb" reads as "a\n", "\n", "b", so its blank line is a "\n" line. */
  lemma ReadLinesCrLf()
    ensures ReadLines("a\r\n\r\nb") == ["a\n", "\n", "b"]
  {
    TranslateSample();
    var lines := ["a\n", "\n", "b"];
    assert Concat(lines) == "a\n\nb" by {
      assert Concat(lines) == "a\n" + Concat(lines[1..]);
      assert lines[1..][1..] == ["b"];
      assert Concat(["b"]) == "b" + Concat([]);
    }
    SplitLinesUnique(lines);
  }

  /** A lone "\r" inside the text also reads as "\n": "a\rb" reads as "a\nb". */
  lemma TranslateCrSample()
    ensures Translate("a\rb") == "a\nb"
  {
    TranslateOther('a');
    TranslateOther('b');
    TranslateCr();
    TranslateAppend("\r", "b");
    assert "\r" + "b" == "\rb";
    TranslateAppend("a", "\rb");
    assert "a" + "\rb" == "a\rb";
  }

  /** A file written with old Mac line endings reads as lines too: "a\rb" reads as "a\n", "b". */
  lemma ReadLinesCr()
    ensures ReadLines("a\rb") == ["a\n", "b"]
  {
    TranslateCrSample();
    var lines := ["a\n", "b"];
    assert Concat(lines) == "a\nb" by {
      assert lines[1..] == ["b"];
      assert Concat(["b"]) == "b" + Concat([]);
    }
    SplitLinesUnique(lines);
  }

  /** A line as `readlines` yields it: non-empty, with a newline at most as its last character. */
  predicate IsLine(l: string) {
    |l| > 0 && forall j :: 0 <= j < |l| - 1 ==> l[j] != '\n'
  }

  predicate EndsWithNewline(l: string) {
    |l| > 0 && l[|l| - 1] == '\n'
  }

  /** Splits `s` after every newline; only the last line may lack its terminator. */
  function SplitLines(s: string): (r: seq<string>)
    ensures Concat(r) == s
    ensures forall k :: 0 <= k < |r| ==> IsLine(r[k])
    ensures forall k :: 0 <= k < |r| - 1 ==> EndsWithNewline(r[k])
  {
    if s == [] then []
    else if s[0] == '\n' then ["\n"] + SplitLines(s[1..])
    else
      var rest := SplitLines(s[1..]);
      if rest == [] then [[s[0]]]
      else [[s[0]] + rest[0]] + rest[1..]
  }

  /** SplitLines is the only way to cut a string into readlines-shaped lines. */
  lemma {:induction false} SplitLinesUnique(lines: seq<string>)
    requires forall k :: 0 <= k < |lines| ==> IsLine(lines[k])
    requires forall k :: 0 <= k < |lines| - 1 ==> EndsWithNewline(lines[k])
    ensures SplitLines(Concat(lines)) == lines
    decreases |Concat(lines)|
  {
    if lines != [] {
      var l0 := lines[0];
      var rest := lines[1..];
      assert Concat(lines) == l0 + Concat(rest);
      if l0[0] == '\n' {
        assert l0 == "\n";
        SplitLinesUnique(rest);
        assert (l0 + Concat(rest))[1..] == Concat(rest);
      } else if |l0| == 1 {
        assert rest == [];
        assert Concat(lines) == l0;
      } else {
        var t := l0[1..];
        var lines' := [t] + rest;
        assert IsLine(t) by {
          forall j | 0 <= j < |t| - 1 ensures t[j] != '\n' {
            assert t[j] == l0[j + 1];
          }
        }
        assert forall k :: 0 <= k < |lines'| - 1 ==> EndsWithNewline(lines'[k]) by {
          forall k | 0 <= k < |lines'| - 1 ensures EndsWithNewline(lines'[k]) {
            if k == 0 {
              assert EndsWithNewline(lines[0]);
            } else {
              assert lines'[k] == lines[k];
            }
          }
        }
        assert lines'[1..] == rest;
        assert Concat(lines') == t + Concat(rest);
        assert Concat(lines)[1..] == Concat(lines') by {
          assert l0 == [l0[0]] + t;
        }
        SplitLinesUnique(lines');
        assert Concat(lines)[0] == l0[0];
        assert [l0[0]] + t == l0;
      }
    }
  }

  /** `readlines()` on a file whose stored contents are `s`. */
  function ReadLines(s: string): (r: seq<string>)
    ensures Concat(r) == Translate(s)
    ensures forall k :: 0 <= k < |r| ==> IsLine(r[k])
    ensures forall k :: 0 <= k < |r| - 1 ==> EndsWithNewline(r[k])
  {
    SplitLines(Translate(s))
  }
}

=== FILE: normalize.dfy ===
/** The per-line rule of the cleaning stage: drop "\n" lines, collapse whitespace runs. */
module Normalize {
  import opened Text
  import opened Lines

  /** A string in which every whitespace character is a plain space and no two are adjacent. */
  predicate IsCollapsed(s: string) {
    && (forall i :: 0 <= i < |s| && IsSpace(s[i]) ==> s[i] == ' ')
    && (forall i :: 0 <= i < |s| - 1 ==> !IsSpace(s[i]) || !IsSpace(s[i + 1]))
  }

  /** The part of `s` after its leading whitespace run. */
  function SkipSpaces(s: string): (r: string)
    ensures |r| <= |s| && r == s[|s| - |r|..]
    ensures forall i :: 0 <= i < |s| - |r| ==> IsSpace(s[i])
    ensures r == [] || !IsSpace(r[0])
    ensures s != [] && IsSpace(s[0]) ==> |r| < |s|
  {
    if s != [] && IsSpace(s[0]) then SkipSpaces(s[1..]) else s
  }

  /** Skipping a whitespace run loses no non-whitespace character. */
  lemma {:induction false} NonSpaceSkipSpaces(s: string)
    ensures NonSpace(SkipSpaces(s)) == NonSpace(s)
  {
    if s != [] && IsSpace(s[0]) {
      NonSpaceSkipSpaces(s[1..]);
    }
  }

  /** `re.sub(r"\s+", " ", s)`: every maximal whitespace run becomes one space. */
  function Collapse(s: string): (r: string)
    ensures |r| <= |s| && (r == [] <==> s == [])
    ensures r != [] ==> (IsSpace(r[0]) <==> IsSpace(s[0]))
    decreases |s|
  {
    if s == [] then []
    else if IsSpace(s[0]) then " " + Collapse(SkipSpaces(s))
    else [s[0]] + Collapse(s[1..])
  }

  /** No whitespace run survives: the result holds only plain spaces, never two in a row. */
  lemma {:induction false} CollapseIsCollapsed(s: string)
    ensures IsCollapsed(Collapse(s))
    decreases |s|
  {
    if s != [] {
      var t := if IsSpace(s[0]) then SkipSpaces(s) else s[1..];
      var head := if IsSpace(s[0]) then " " else [s[0]];
      CollapseIsCollapsed(t);
      var ct := Collapse(t);
      assert Collapse(s) == head + ct;
      CollapsedCons(head, ct);
    }
  }

  /** One character in front of a collapsed string keeps it collapsed, as long as it is not
      whitespace or is a single space before a non-whitespace start. */
  lemma CollapsedCons(h: string, t: string)
    requires |h| == 1 && (IsSpace(h[0]) ==> h[0] == ' ' && (t == [] || !IsSpace(t[0])))
    requires IsCollapsed(t)
    ensures IsCollapsed(h + t)
  {
    var r := h + t;
    forall i | 0 <= i < |r| && IsSpace(r[i]) ensures r[i] == ' ' {
      if i > 0 {
        assert r[i] == t[i - 1];
      }
    }
    forall i | 0 <= i < |r| - 1 ensures !IsSpace(r[i]) || !IsSpace(r[i + 1]) {
      if i > 0 {
        assert r[i] == t[i - 1] && r[i + 1] == t[i];
      }
    }
  }

  /** Collapsing keeps every non-whitespace character, in order, and adds none. */
  lemma {:induction false} CollapseKeepsNonSpace(s: string)
    ensures NonSpace(Collapse(s)) == NonSpace(s)
    decreases |s|
  {
    if s == [] {
    } else if IsSpace(s[0]) {
      var t := SkipSpaces(s);
      NonSpaceSkipSpaces(s);
      CollapseKeepsNonSpace(t);
      NonSpaceAppend(" ", Collapse(t));
    } else {
      CollapseKeepsNonSpace(s[1..]);
      NonSpaceAppend([s[0]], Collapse(s[1..]));
    }
  }

  /** A collapsed string is a fixed point of Collapse. */
  lemma {:induction false} CollapseFixesCollapsed(s: string)
    requires IsCollapsed(s)
    ensures Collapse(s) == s
  {
    if s != [] {
      assert IsCollapsed(s[1..]) by {
        forall i | 0 <= i < |s[1..]| - 1 ensures !IsSpace(s[1..][i]) || !IsSpace(s[1..][i + 1]) {
          assert s[1..][i] == s[i + 1] && s[1..][i + 1] == s[i + 2];
        }
      }
      CollapseFixesCollapsed(s[1..]);
      if IsSpace(s[0]) {
        assert s[0] == ' ';
        assert SkipSpaces(s) == s[1..] by {
          assert |s| > 1 ==> !IsSpace(s[1]);
        }
      }
    }
  }

  /** Collapsing a second time changes nothing. */
  lemma CollapseIdempotent(s: string)
    ensures Collapse(Collapse(s)) == Collapse(s)
  {
    CollapseIsCollapsed(s);
    CollapseFixesCollapsed(Collapse(s));
  }

  predicate AllSpace(w: string) {
    forall i :: 0 <= i < |w| ==> IsSpace(w[i])
  }

  /** A non-empty whitespace run, whatever characters it holds, becomes exactly one space. */
  lemma WhitespaceRunIsOneSpace(w: string)
    requires w != [] && AllSpace(w)
    ensures Collapse(w) == " "
  {
    assert SkipSpaces(w) == [];
  }

  /** Collapse works run by run: a string cut anywhere except inside a whitespace run
      collapses to the concatenation of its collapsed halves. */
  lemma {:induction false} CollapseAppend(a: string, b: string)
    requires a == [] || b == [] || !IsSpace(a[|a| - 1]) || !IsSpace(b[0])
    ensures Collapse(a + b) == Collapse(a) + Collapse(b)
    decreases |a|, 1
  {
    if a == [] {
      assert a + b == b;
    } else if IsSpace(a[0]) {
      CollapseAppendRun(a, b);
    } else {
      CollapseAppendChar(a, b);
    }
  }

  lemma {:induction false} CollapseAppendRun(a: string, b: string)
    requires a != [] && IsSpace(a[0])
    requires b == [] || !IsSpace(a[|a| - 1]) || !IsSpace(b[0])
    ensures Collapse(a + b) == Collapse(a) + Collapse(b)
    decreases |a|, 0
  {
    var ab := a + b;
    assert ab[0] == a[0];
    var t := SkipSpaces(a);
    SkipSpacesAppend(a, b);
    assert SkipSpaces(ab) == t + b;
    if t == [] {
      assert t + b == b;
      assert Collapse(a) == " ";
    } else {
      assert t[|t| - 1] == a[|a| - 1];
      CollapseAppend(t, b);
      ConcatAssoc(" ", Collapse(t), Collapse(b));
    }
  }

  lemma {:induction false} CollapseAppendChar(a: string, b: string)
    requires a != [] && !IsSpace(a[0])
    requires b == [] || !IsSpace(a[|a| - 1]) || !IsSpace(b[0])
    ensures Collapse(a + b) == Collapse(a) + Collapse(b)
    decreases |a|, 0
  {
    var ab := a + b;
    assert ab[0] == a[0];
    assert ab[1..] == a[1..] + b;
    if a[1..] != [] {
      assert a[1..][|a[1..]| - 1] == a[|a| - 1];
    }
    CollapseAppend(a[1..], b);
    ConcatAssoc([a[0]], Collapse(a[1..]), Collapse(b));
  }

  lemma {:induction false} SkipSpacesAppend(a: string, b: string)
    requires a != [] && IsSpace(a[0])
    requires b == [] || !IsSpace(b[0]) || SkipSpaces(a) != []
    ensures SkipSpaces(a + b) == SkipSpaces(a) + b
    decreases |a|
  {
    var ab := a + b;
    assert ab[0] == a[0];
    assert ab[1..] == a[1..] + b;
    assert SkipSpaces(ab) == SkipSpaces(a[1..] + b);
    assert SkipSpaces(a) == SkipSpaces(a[1..]);
    if a[1..] == [] {
      assert a[1..] + b == b;
    } else if IsSpace(a[1]) {
      SkipSpacesAppend(a[1..], b);
    } else {
      assert (a[1..] + b)[0] == a[1];
    }
  }

  /** The list comprehension of the cleaning stage: lines equal to "\n" are dropped and every
      other line is collapsed. */
  function CleanLines(lines: seq<string>): (r: seq<string>)
    ensures |r| == |lines| - multiset(lines)["\n"]
    ensures (forall i :: 0 <= i < |lines| ==> lines[i] != []) ==> forall k :: 0 <= k < |r| ==> r[k] != []
  {
    if lines == [] then []
    else
      assert lines == [lines[0]] + lines[1..];
      (if lines[0] == "\n" then [] else [Collapse(lines[0])]) + CleanLines(lines[1..])
  }

  /** Every cleaned line is collapsed: it holds no newline and no two adjacent whitespace characters. */
  lemma {:induction false} CleanLinesAreCollapsed(lines: seq<string>)
    ensures forall k :: 0 <= k < |CleanLines(lines)| ==> IsCollapsed(CleanLines(lines)[k])
  {
    if lines != [] {
      CleanLinesAreCollapsed(lines[1..]);
      CollapseIsCollapsed(lines[0]);
    }
  }

  /** Cleaning treats lines independently: it distributes over concatenation. */
  lemma {:induction false} CleanLinesAppend(a: seq<string>, b: seq<string>)
    ensures CleanLines(a + b) == CleanLines(a) + CleanLines(b)
  {
    if a == [] {
      assert a + b == b;
    } else {
      var h := if a[0] == "\n" then [] else [Collapse(a[0])];
      assert (a + b)[0] == a[0];
      assert (a + b)[1..] == a[1..] + b;
      assert CleanLines(a + b) == h + CleanLines(a[1..] + b);
      CleanLinesAppend(a[1..], b);
      assert CleanLines(a) == h + CleanLines(a[1..]);
      ConcatAssoc(h, CleanLines(a[1..]), CleanLines(b));
    }
  }

  /** Every kept line survives, collapsed, at its original position minus the number of
      "\n" lines before it: relative order is preserved and nothing else is dropped. */
  lemma CleanLinesAt(lines: seq<string>, i: int)
    requires 0 <= i < |lines| && lines[i] != "\n"
    ensures var m := multiset(lines[..i])["\n"];
            0 <= i - m < |CleanLines(lines)| && CleanLines(lines)[i - m] == Collapse(lines[i])
  {
    assert lines == lines[..i] + ([lines[i]] + lines[i + 1..]);
    CleanLinesAppend(lines[..i], [lines[i]] + lines[i + 1..]);
    CleanLinesAppend([lines[i]], lines[i + 1..]);
    assert CleanLines([lines[i]]) == [Collapse(lines[i])];
  }

  /** Cleaning a line sequence loses no non-whitespace character. */
  lemma {:induction false} CleanLinesKeepsNonSpace(lines: seq<string>)
    ensures NonSpace(Concat(CleanLines(lines))) == NonSpace(Concat(lines))
  {
    if lines != [] {
      var l, rest := lines[0], lines[1..];
      var head := CleanLines([l]);
      var tail := CleanLines(rest);
      assert [l] + rest == lines;
      CleanLinesAppend([l], rest);
      ConcatAppend(head, tail);
      NonSpaceAppend(Concat(head), Concat(tail));
      CleanLineKeepsNonSpace(l);
      CleanLinesKeepsNonSpace(rest);
      NonSpaceAppend(l, Concat(rest));
      assert Concat(lines) == l + Concat(rest);
    }
  }

  lemma CleanLineKeepsNonSpace(l: string)
    ensures NonSpace(Concat(CleanLines([l]))) == NonSpace(l)
  {
    assert [l][1..] == [];
    if l == "\n" {
      assert NonSpace(l) == [];
    } else {
      CollapseKeepsNonSpace(l);
      assert CleanLines([l]) == [Collapse(l)] + CleanLines([]);
      assert Concat([Collapse(l)]) == Collapse(l) + Concat([]);
      assert Collapse(l) + [] == Collapse(l);
    }
  }

  /** Joining collapsed lines yields only plain spaces as whitespace, hence no newline. */
  lemma {:induction false} ConcatCollapsedHasOnlySpaces(lines: seq<string>)
    requires forall k :: 0 <= k < |lines| ==> IsCollapsed(lines[k])
    ensures forall i :: 0 <= i < |Concat(lines)| && IsSpace(Concat(lines)[i]) ==> Concat(lines)[i] == ' '
  {
    if lines != [] {
      ConcatCollapsedHasOnlySpaces(lines[1..]);
      var c := Concat(lines);
      assert c == lines[0] + Concat(lines[1..]);
      forall i | 0 <= i < |c| && IsSpace(c[i]) ensures c[i] == ' ' {
        if i < |lines[0]| {
          assert c[i] == lines[0][i];
        } else {
          assert c[i] == Concat(lines[1..])[i - |lines[0]|];
        }
      }
    }
  }

  /** The text a raw file becomes: its lines, cleaned, written back with `writelines`
      (no separator). */
  function CleanFile(content: string): (r: string)
    ensures forall i :: 0 <= i < |r| ==> r[i] != '\n' && (IsSpace(r[i]) ==> r[i] == ' ')
    ensures NonSpace(r) == NonSpace(content)
  {
    var lines := ReadLines(content);
    CleanLinesKeepsNonSpace(lines);
    CleanLinesAreCollapsed(lines);
    ConcatCollapsedHasOnlySpaces(CleanLines(lines));
    Concat(CleanLines(lines))
  }

  /** A line made only of whitespace is not "\n", so it is kept and becomes a single space:
      cleaned files can hold blank-looking lines. */
  lemma WhitespaceOnlyLineKept(w: string)
    requires w != "\n" && w != [] && AllSpace(w)
    ensures CleanLines([w]) == [" "]
  {
    WhitespaceRunIsOneSpace(w);
    assert CleanLines([w]) == [Collapse(w)] + CleanLines([]);
  }

  predicate NoLineBreak(s: string) {
    forall i :: 0 <= i < |s| ==> s[i] != '\n' && s[i] != '\r'
  }

  /** A line, a "\n" line, then an indented line: the blank line disappears, but the first
      line's newline and the indentation each become one space and `writelines` puts nothing
      between them, so the cleaned file holds a double space at the join (for example
      "Goku is a Saiyan.\n\n  raised on  Earth.\n" cleans to
      "Goku is a Saiyan.  raised on Earth. "). */
  lemma JoinKeepsDoubleSpace(x: string, w: string, y: string)
    requires x != [] && y != [] && NoLineBreak(x) && NoLineBreak(y)
    requires !IsSpace(x[|x| - 1]) && !IsSpace(y[0]) && !IsSpace(y[|y| - 1])
    requires w != [] && AllSpace(w) && NoLineBreak(w)
    ensures CleanFile(x + "\n" + "\n" + w + y + "\n") == Collapse(x) + "  " + Collapse(y) + " "
  {
    JoinReadLines(x, w, y);
    JoinCleanLines(x, w, y);
  }

  lemma JoinCleanLines(x: string, w: string, y: string)
    requires x != [] && y != []
    requires !IsSpace(x[|x| - 1]) && !IsSpace(y[0]) && !IsSpace(y[|y| - 1])
    requires w != [] && AllSpace(w)
    ensures Concat(CleanLines([x + "\n", "\n", w + (y + "\n")])) == Collapse(x) + "  " + Collapse(y) + " "
  {
    var l1, l3 := x + "\n", w + (y + "\n");
    LineThenNewline(x);
    IndentedLine(w, y);
    CleanLinesAroundNewline(l1, l3);
    ConcatPair(Collapse(l1), Collapse(l3));
    SpacedJoin(Collapse(x), Collapse(y));
  }

  /** The join of the two cleaned lines, regrouped; stated apart so that the solver does
      not unfold Collapse while proving it. */
  lemma SpacedJoin(a: string, b: string)
    ensures (a + " ") + (" " + (b + " ")) == a + "  " + b + " "
  {
  }

  lemma CleanLinesAroundNewline(l1: string, l3: string)
    requires l1 != "\n" && l3 != "\n"
    ensures CleanLines([l1, "\n", l3]) == [Collapse(l1), Collapse(l3)]
  {
    var lines := [l1, "\n", l3];
    assert lines[1..] == ["\n", l3];
    assert lines[1..][1..] == [l3];
    assert CleanLines([l3]) == [Collapse(l3)] + CleanLines([]);
    assert CleanLines(["\n", l3]) == CleanLines([l3]);
    assert CleanLines(lines) == [Collapse(l1)] + CleanLines(["\n", l3]);
  }

  lemma ConcatPair(a: string, b: string)
    ensures Concat([a, b]) == a + b
  {
    assert [a, b][1..] == [b];
    assert Concat([b]) == b + Concat([]);
    assert Concat([a, b]) == a + Concat([b]);
  }

  lemma LineThenNewline(x: string)
    requires x != [] && !IsSpace(x[|x| - 1])
    ensures Collapse(x + "\n") == Collapse(x) + " "
  {
    WhitespaceRunIsOneSpace("\n");
    CollapseAppend(x, "\n");
  }

  lemma IndentedLine(w: string, y: string)
    requires y != [] && !IsSpace(y[0]) && !IsSpace(y[|y| - 1])
    requires w != [] && AllSpace(w)
    ensures Collapse(w + (y + "\n")) == " " + (Collapse(y) + " ")
  {
    LineThenNewline(y);
    WhitespaceRunIsOneSpace(w);
    CollapseAppend(w, y + "\n");
  }

  lemma JoinReadLines(x: string, w: string, y: string)
    requires x != [] && y != [] && NoLineBreak(x) && NoLineBreak(y)
    requires w != [] && NoLineBreak(w)
    ensures ReadLines(x + "\n" + "\n" + w + y + "\n") == [x + "\n", "\n", w + (y + "\n")]
  {
    var l1, l3 := x + "\n", w + (y + "\n");
    var lines := [l1, "\n", l3];
    var s := x + "\n" + "\n" + w + y + "\n";
    assert Concat(lines) == l1 + ("\n" + l3) by {
      assert lines[1..] == ["\n", l3];
      ConcatPair("\n", l3);
    }
    assert Concat(lines) == s;
    assert Translate(s) == s by {
      forall i | 0 <= i < |s| ensures s[i] != '\r' {
        if i < |x| {
          assert s[i] == x[i];
        } else if i < |x| + 2 {
        } else if i < |x| + 2 + |w| {
          assert s[i] == w[i - |x| - 2];
        } else if i < |x| + 2 + |w| + |y| {
          assert s[i] == y[i - |x| - 2 - |w|];
        }
      }
    }
    assert IsLine(l1) by {
      forall j | 0 <= j < |l1| - 1 ensures l1[j] != '\n' {
        assert l1[j] == x[j];
      }
    }
    assert IsLine(l3) by {
      forall j | 0 <= j < |l3| - 1 ensures l3[j] != '\n' {
        if j < |w| {
          assert l3[j] == w[j];
        } else {
          assert l3[j] == y[j - |w|];
        }
      }
    }
    SplitLinesUnique(lines);
  }
}

=== FILE: pages.dfy ===
/** Fetched pages, reduced to what the crawler reads from their HTML. */
module Pages {
  import opened Wrappers
  import opened Text

  /** An `a` element: its `title` and `href` attributes (absent ones raise on access) and
      its visible text. */
  datatype Anchor = Anchor(title: Option<string>, href: Option<string>, text: string)

  /** A direct child of a block: a bare string, or an element with its tag name and the
      text `get_text()` returns for it. */
  datatype Node = TextNode(s: string) | Element(name: string, text: string)

  /** A `div` block: its direct children and every `a` inside it, in document order. */
  datatype Div = Div(children: seq<Node>, anchors: seq<Anchor>)

  /** A fetched page: its HTTP status and, for each class, the first `div` carrying it
      (what `soup.find('div', class_=...)` returns). */
  datatype Page = Page(status: int, divs: map<string, Div>)

  /** Children whose text goes into the raw file: elements named `p` or `ul`. */
  predicate IsTextBlock(n: Node) {
    n.Element? && (n.name == "p" || n.name == "ul")
  }

  /** Some child is a `p` or `ul` element with non-empty text. */
  predicate HasTextBlock(children: seq<Node>) {
    exists k :: 0 <= k < |children| && IsTextBlock(children[k]) && children[k].text != []
  }

  /** The text written for a content block: the texts of its `p` and `ul` children, in order.
      Text comes only from such children: a block without a non-empty `p` or `ul` writes
      nothing. */
  function BlockText(children: seq<Node>): (r: string)
    ensures r != [] ==> HasTextBlock(children)
  {
    if children == [] then []
    else (if IsTextBlock(children[0]) then children[0].text else []) + BlockText(children[1..])
  }

  /** Block text is built child by child: it distributes over concatenation. */
  lemma {:induction false} BlockTextAppend(a: seq<Node>, b: seq<Node>)
    ensures BlockText(a + b) == BlockText(a) + BlockText(b)
  {
    if a == [] {
      assert a + b == b;
    } else {
      var h := if IsTextBlock(a[0]) then a[0].text else [];
      assert (a + b)[0] == a[0];
      assert (a + b)[1..] == a[1..] + b;
      assert BlockText(a + b) == h + BlockText(a[1..] + b);
      BlockTextAppend(a[1..], b);
      assert BlockText(a) == h + BlockText(a[1..]);
      ConcatAssoc(h, BlockText(a[1..]), BlockText(b));
    }
  }

  /** The text a single child contributes. */
  lemma BlockTextSingle(n: Node)
    ensures BlockText([n]) == if IsTextBlock(n) then n.text else []
  {
    assert [n][1..] == [];
  }

  /** Children other than `p` and `ul` elements contribute nothing: removing them leaves the
      text unchanged, and a block made only of them yields the empty text. */
  lemma OtherChildrenIgnored(children: seq<Node>, i: int)
    requires 0 <= i < |children| && !IsTextBlock(children[i])
    ensures BlockText(children[..i] + children[i + 1..]) == BlockText(children)
  {
    var pre, c, post := children[..i], children[i], children[i + 1..];
    assert children == pre + ([c] + post);
    BlockTextSingle(c);
    BlockTextAppend([c], post);
    assert BlockText([c] + post) == BlockText(post);
    BlockTextAppend(pre, [c] + post);
    BlockTextAppend(pre, post);
  }

  /** Every `p` or `ul` child's text occurs in the block text, right after the text of the
      children before it. */
  lemma TextBlockIncluded(children: seq<Node>, i: int)
    requires 0 <= i < |children| && IsTextBlock(children[i])
    ensures BlockText(children) == BlockText(children[..i]) + children[i].text + BlockText(children[i + 1..])
  {
    var pre, c, post := children[..i], children[i], children[i + 1..];
    assert children == pre + ([c] + post);
    BlockTextSingle(c);
    BlockTextAppend([c], post);
    BlockTextAppend(pre, [c] + post);
    ConcatAssoc(BlockText(pre), c.text, BlockText(post));
  }

  /** What an article page contributes to its raw file: the block text of the content `div`
      with class `outputTag`, or nothing when the page has no such block. */
  function ArticleText(page: Page, outputTag: string): (r: string)
    ensures outputTag !in page.divs ==> r == []
  {
    if outputTag in page.divs then BlockText(page.divs[outputTag].children) else []
  }
}

=== FILE: scraper.dfy ===
/** The scraping stage: walking the paginated article index and saving one raw file per
    article link. */
module Scraper {
  import opened Wrappers
  import opened Text
  import opened Titles
  import opened FileSystem
  import opened Common
  import opened Pages

  type Url = string

  /** The reachable web: fetching a URL absent from the map raises. */
  type Web = map<Url, Page>

  /** Text of the last navigation link that marks the end of the index. */
  const PreviousPageMarker: string := "Previous page"

  /** Why a crawl stopped without error. */
  datatype Halt = BodyMissing | NavMissing | NoNavLinks | WrappedAround

  /** What the navigation block of an index page says to do next. */
  datatype Step = Stop(reason: Halt) | Follow(url: Url) | Broken(error: Error)

  /** How a scraping run ended. `NotConnected` is the early return on a non-200 first
      response; `OutOfFuel` only means the model's step bound was reached. */
  datatype End = NotConnected | Halted(reason: Halt) | Failed(error: Error) | OutOfFuel

  /** A scraping run: the filesystem afterwards, the number of articles saved, and how it ended. */
  datatype Crawl = Crawl(fs: Fs, count: nat, end: End)

  /** Progress through one index page's article links. */
  datatype Progress = Progress(fs: Fs, count: nat, error: Option<Error>)

  /** An article link that can be saved: both attributes are present and its page can be fetched. */
  predicate Fetchable(cfg: IngestionConfig, web: Web, a: Anchor) {
    a.title.Some? && a.href.Some? && cfg.baseUrl + a.href.value in web
  }

  /** The raw file an article link writes. */
  function NameOf(a: Anchor): Name
    requires a.title.Some?
  {
    FileName(a.title.value)
  }

  /** The text saved for a fetchable link. */
  function TextFor(cfg: IngestionConfig, web: Web, a: Anchor): string
    requires Fetchable(cfg, web, a)
  {
    ArticleText(web[cfg.baseUrl + a.href.value], cfg.outputTag)
  }

  /** The files a run of links may write. */
  function Names(anchors: seq<Anchor>): set<Name> {
    if anchors == [] then {}
    else (if anchors[0].title.Some? then {NameOf(anchors[0])} else {}) + Names(anchors[1..])
  }

  /** One article link: read `title` then `href`, open the raw file for writing (creating it
      empty), fetch `baseUrl + href`, and write the page's text. */
  function SaveArticle(cfg: IngestionConfig, web: Web, fs: Fs, a: Anchor): (r: (Fs, Option<Error>))
    requires cfg.rawPath in fs
    ensures r.0.Keys == fs.Keys
    ensures forall p :: p in fs && p != cfg.rawPath ==> r.0[p] == fs[p]
    ensures r.1.None? <==> Fetchable(cfg, web, a)
    ensures a.title.None? || a.href.None? ==> r.0 == fs
  {
    match a.title
    case None => (fs, Some(MissingAttribute("title")))
    case Some(title) =>
      match a.href
      case None => (fs, Some(MissingAttribute("href")))
      case Some(href) =>
        // the file is opened in overwrite mode before the request, so a fetch that
        // raises leaves it empty
        var url := cfg.baseUrl + href;
        var text := if url in web then ArticleText(web[url], cfg.outputTag) else [];
        (WriteFile(fs, cfg.rawPath, FileName(title), text), if url in web then None else Some(FetchFailed(url)))
  }

  /** With both attributes present, the link writes exactly its own raw file, in overwrite
      mode: the page's text when it can be fetched, and an empty file when the fetch raises
      (the file was opened before the request). */
  lemma SaveArticleWrites(cfg: IngestionConfig, web: Web, fs: Fs, a: Anchor)
    requires cfg.rawPath in fs && a.title.Some? && a.href.Some?
    ensures SaveArticle(cfg, web, fs, a).0[cfg.rawPath]
         == fs[cfg.rawPath][NameOf(a) := if Fetchable(cfg, web, a) then TextFor(cfg, web, a) else []]
  {
  }

  /** The `for` loop over an index page's links: links are saved in order and the first one
      that raises stops everything, leaving earlier files written. */
  function ProcessArticles(cfg: IngestionConfig, web: Web, fs: Fs, count: nat, anchors: seq<Anchor>): (r: Progress)
    requires cfg.rawPath in fs
    ensures r.fs.Keys == fs.Keys
    ensures forall p :: p in fs && p != cfg.rawPath ==> r.fs[p] == fs[p]
    ensures count <= r.count
    decreases |anchors|
  {
    if anchors == [] then Progress(fs, count, None)
    else
      var (fs1, err) := SaveArticle(cfg, web, fs, anchors[0]);
      if err.Some? then Progress(fs1, count, err)
      else ProcessArticles(cfg, web, fs1, count + 1, anchors[1..])
  }

  /** How many links, from the start, can be saved before the first one that cannot. */
  function FetchablePrefix(cfg: IngestionConfig, web: Web, anchors: seq<Anchor>): (k: nat)
    ensures k <= |anchors|
    ensures forall i :: 0 <= i < k ==> Fetchable(cfg, web, anchors[i])
    ensures k < |anchors| ==> !Fetchable(cfg, web, anchors[k])
    decreases |anchors|
  {
    if anchors == [] || !Fetchable(cfg, web, anchors[0]) then 0
    else
      var k := FetchablePrefix(cfg, web, anchors[1..]);
      assert forall i :: 1 <= i <= k ==> anchors[i] == anchors[1..][i - 1];
      1 + k
  }

  /** The loop saves and counts the links up to the first one that cannot be saved, and
      stops there with an error; it succeeds exactly when every link can be saved. */
  lemma {:induction false} ProcessArticlesOutcome(cfg: IngestionConfig, web: Web, fs: Fs, count: nat, anchors: seq<Anchor>)
    requires cfg.rawPath in fs
    ensures var r, k := ProcessArticles(cfg, web, fs, count, anchors), FetchablePrefix(cfg, web, anchors);
      && r.count == count + k
      && (r.error.None? <==> k == |anchors|)
    decreases |anchors|
  {
    if anchors != [] {
      var rest := anchors[1..];
      var fs1, saved := ProcessArticlesTurn(cfg, web, fs, count, anchors, rest);
      if saved {
        ProcessArticlesOutcome(cfg, web, fs1, count + 1, rest);
        var k' := FetchablePrefix(cfg, web, rest);
        assert FetchablePrefix(cfg, web, anchors) == k' + 1;
        assert (k' == |rest|) == (k' + 1 == |anchors|);
      }
    }
  }

  /** The loop succeeds exactly when every link can be saved, and then counts them all. */
  lemma ProcessArticlesSucceeds(cfg: IngestionConfig, web: Web, fs: Fs, count: nat, anchors: seq<Anchor>)
    requires cfg.rawPath in fs
    ensures var r := ProcessArticles(cfg, web, fs, count, anchors);
      && (r.error.None? <==> forall i :: 0 <= i < |anchors| ==> Fetchable(cfg, web, anchors[i]))
      && (r.error.None? ==> r.count == count + |anchors|)
  {
    ProcessArticlesOutcome(cfg, web, fs, count, anchors);
  }

  /** One turn of the loop over a page's links, with the rest of the links named. */
  lemma ProcessArticlesCons(cfg: IngestionConfig, web: Web, fs: Fs, count: nat, anchors: seq<Anchor>,
                            fs1: Fs, err: Option<Error>, rest: seq<Anchor>)
    requires cfg.rawPath in fs && anchors != [] && rest == anchors[1..]
    requires SaveArticle(cfg, web, fs, anchors[0]) == (fs1, err)
    ensures err.None? <==> Fetchable(cfg, web, anchors[0])
    ensures cfg.rawPath in fs1
    ensures FetchablePrefix(cfg, web, anchors) == if err.Some? then 0 else 1 + FetchablePrefix(cfg, web, rest)
    ensures var r := ProcessArticles(cfg, web, fs, count, anchors);
      if err.Some? then r.count == count && r.error == err
      else
        var r' := ProcessArticles(cfg, web, fs1, count + 1, rest);
        r.count == r'.count && r.error == r'.error
  {
  }

  /** One turn of the loop, seen from outside: whether the first link was saved, and the
      filesystem the rest of the loop starts from. */
  lemma ProcessArticlesTurn(cfg: IngestionConfig, web: Web, fs: Fs, count: nat, anchors: seq<Anchor>, rest: seq<Anchor>)
    returns (fs1: Fs, saved: bool)
    requires cfg.rawPath in fs && anchors != [] && rest == anchors[1..]
    ensures cfg.rawPath in fs1
    ensures FetchablePrefix(cfg, web, anchors) == if saved then 1 + FetchablePrefix(cfg, web, rest) else 0
    ensures var r := ProcessArticles(cfg, web, fs, count, anchors);
      if saved then
        var r' := ProcessArticles(cfg, web, fs1, count + 1, rest);
        r.count == r'.count && r.error == r'.error
      else r.count == count && r.error.Some?
  {
    var err;
    fs1, err := SaveArticle(cfg, web, fs, anchors[0]).0, SaveArticle(cfg, web, fs, anchors[0]).1;
    ProcessArticlesCons(cfg, web, fs, count, anchors, fs1, err, rest);
    saved := err.None?;
  }

  /** The raw files a page's links leave: only names of the links are created or changed,
      and when no link fails every one of them exists. */
  lemma {:induction false} ProcessArticlesFiles(cfg: IngestionConfig, web: Web, fs: Fs, count: nat, anchors: seq<Anchor>)
    requires cfg.rawPath in fs
    ensures var d, d' := fs[cfg.rawPath], ProcessArticles(cfg, web, fs, count, anchors).fs[cfg.rawPath];
      && d'.Keys <= d.Keys + Names(anchors)
      && (ProcessArticles(cfg, web, fs, count, anchors).error.None? ==> d'.Keys == d.Keys + Names(anchors))
      && (forall n :: n in d && n !in Names(anchors) ==> n in d' && d'[n] == d[n])
    decreases |anchors|
  {
    if anchors != [] {
      var (fs1, err) := SaveArticle(cfg, web, fs, anchors[0]);
      if anchors[0].title.Some? && anchors[0].href.Some? {
        SaveArticleWrites(cfg, web, fs, anchors[0]);
      }
      if err.None? {
        ProcessArticlesFiles(cfg, web, fs1, count + 1, anchors[1..]);
      }
    }
  }

  /** Links sharing a file name overwrite each other: when every link is saved, the file of
      link `j` holds link `j`'s text unless a later link writes the same name. */
  lemma {:induction false} LaterArticleWins(cfg: IngestionConfig, web: Web, fs: Fs, count: nat, anchors: seq<Anchor>, j: int)
    requires cfg.rawPath in fs
    requires forall i :: 0 <= i < |anchors| ==> Fetchable(cfg, web, anchors[i])
    requires 0 <= j < |anchors|
    requires forall k :: j < k < |anchors| && anchors[k].title.Some? && anchors[j].title.Some? ==>
      NameOf(anchors[k]) != NameOf(anchors[j])
    ensures var d := ProcessArticles(cfg, web, fs, count, anchors).fs[cfg.rawPath];
      Fetchable(cfg, web, anchors[j]) && NameOf(anchors[j]) in d && d[NameOf(anchors[j])] == TextFor(cfg, web, anchors[j])
    decreases |anchors|
  {
    var (fs1, err) := SaveArticle(cfg, web, fs, anchors[0]);
    SaveArticleWrites(cfg, web, fs, anchors[0]);
    var rest := anchors[1..];
    if j == 0 {
      var n := NameOf(anchors[0]);
      assert n !in Names(rest) by {
        NamesWitness(rest, n);
      }
      ProcessArticlesFiles(cfg, web, fs1, count + 1, rest);
    } else {
      assert forall k :: 0 <= k < |rest| ==> rest[k] == anchors[k + 1];
      LaterArticleWins(cfg, web, fs1, count + 1, rest, j - 1);
    }
  }

  /** Every name in `Names(anchors)` is the name of one of the links. */
  lemma {:induction false} NamesWitness(anchors: seq<Anchor>, n: Name)
    ensures n in Names(anchors) <==> exists k :: 0 <= k < |anchors| && anchors[k].title.Some? && NameOf(anchors[k]) == n
  {
    if anchors != [] {
      NamesWitness(anchors[1..], n);
      assert forall k :: 1 <= k < |anchors| ==> anchors[k] == anchors[1..][k - 1];
      if exists k :: 0 <= k < |anchors| && anchors[k].title.Some? && NameOf(anchors[k]) == n {
        var k :| 0 <= k < |anchors| && anchors[k].title.Some? && NameOf(anchors[k]) == n;
        if k > 0 {
          assert anchors[1..][k - 1] == anchors[k];
        }
      }
    }
  }

  /** The pagination rule read after a page's links are saved. The next page is always
      requested under the base URL, and the only way the rule raises is a last link without
      an `href`. */
  function NavStep(cfg: IngestionConfig, page: Page): (r: Step)
    ensures r.Follow? ==> cfg.baseUrl <= r.url
    ensures r.Broken? ==> r.error == MissingAttribute("href")
  {
    if cfg.navTag !in page.divs then Stop(NavMissing)
    else
      var links := page.divs[cfg.navTag].anchors;
      if |links| == 0 then Stop(NoNavLinks)
      else if Contains(Last(links).text, PreviousPageMarker) then Stop(WrappedAround)
      else match Last(links).href
        case None => Broken(MissingAttribute("href"))
        case Some(href) => Follow(cfg.baseUrl + href)
  }

  /** The crawl stops without a navigation block, without links in it, or when its LAST
      link's text mentions "Previous page"; otherwise it follows that last link, which
      raises when the link has no `href`. */
  lemma NavStepRule(cfg: IngestionConfig, page: Page)
    ensures var r := NavStep(cfg, page);
      && (r.Stop? <==>
           || cfg.navTag !in page.divs
           || |page.divs[cfg.navTag].anchors| == 0
           || Contains(Last(page.divs[cfg.navTag].anchors).text, PreviousPageMarker))
      && (r.Broken? <==> !r.Stop? && Last(page.divs[cfg.navTag].anchors).href.None?)
      && (r.Follow? ==> !r.Stop? && r.url == cfg.baseUrl + Last(page.divs[cfg.navTag].anchors).href.value)
  {
  }

  function Last(links: seq<Anchor>): Anchor
    requires |links| > 0
  {
    links[|links| - 1]
  }

  /** The article links of an index page; none when it has no article-list block. */
  function BodyAnchors(cfg: IngestionConfig, page: Page): seq<Anchor> {
    if cfg.bodyTag in page.divs then page.divs[cfg.bodyTag].anchors else []
  }

  /** What one pass of the `while True` body does with an index page: it either ends the
      crawl or moves on to the next page with the files and count so far. */
  datatype Visit = Done(crawl: Crawl) | Continue(fs: Fs, count: nat, next: Page)

  /** One pass of the loop body: save the page's article links, then read its navigation. */
  function VisitPage(cfg: IngestionConfig, web: Web, fs: Fs, page: Page, count: nat): (r: Visit)
    requires cfg.rawPath in fs
    ensures r.Done? ==> r.crawl.fs.Keys == fs.Keys && r.crawl.count >= count
    ensures r.Done? ==> forall p :: p in fs && p != cfg.rawPath ==> r.crawl.fs[p] == fs[p]
    ensures r.Done? ==> r.crawl.end.Halted? || r.crawl.end.Failed?
    ensures r.Continue? ==> r.fs.Keys == fs.Keys && r.count >= count && cfg.bodyTag in page.divs
    ensures r.Continue? ==> forall p :: p in fs && p != cfg.rawPath ==> r.fs[p] == fs[p]
  {
    if cfg.bodyTag !in page.divs then Done(Crawl(fs, count, Halted(BodyMissing)))
    else
      var p := ProcessArticles(cfg, web, fs, count, page.divs[cfg.bodyTag].anchors);
      if p.error.Some? then Done(Crawl(p.fs, p.count, Failed(p.error.value)))
      else match NavStep(cfg, page)
        case Stop(h) => Done(Crawl(p.fs, p.count, Halted(h)))
        case Broken(e) => Done(Crawl(p.fs, p.count, Failed(e)))
        case Follow(url) =>
          if url !in web then Done(Crawl(p.fs, p.count, Failed(FetchFailed(url))))
          else Continue(p.fs, p.count, web[url])
  }

  /** The `while True` loop from the current index page on, with at most `fuel` pages. */
  function CrawlFrom(cfg: IngestionConfig, web: Web, fs: Fs, page: Page, count: nat, fuel: nat): (r: Crawl)
    requires cfg.rawPath in fs
    ensures r.fs.Keys == fs.Keys
    ensures forall p :: p in fs && p != cfg.rawPath ==> r.fs[p] == fs[p]
    ensures r.count >= count
    ensures !r.end.NotConnected?
    ensures r.end == OutOfFuel ==> fuel == 0 || cfg.bodyTag in page.divs
    decreases fuel
  {
    if fuel == 0 then Crawl(fs, count, OutOfFuel)
    else match VisitPage(cfg, web, fs, page, count)
      case Done(c) => c
      case Continue(fs', count', next) => CrawlFrom(cfg, web, fs', next, count', fuel - 1)
  }

  /** `initiate_data_scraping`: fetch the first index page, give up quietly unless it
      answers 200, create the raw directory, then crawl. */
  function Scrape(cfg: IngestionConfig, web: Web, fs: Fs, fuel: nat): (r: Crawl)
    ensures r.end.NotConnected? <==> cfg.scrapingUrl in web && web[cfg.scrapingUrl].status != 200
    ensures r.end.NotConnected? || cfg.scrapingUrl !in web ==> r.fs == fs && r.count == 0
    ensures cfg.scrapingUrl !in web ==> r.end == Failed(FetchFailed(cfg.scrapingUrl))
    ensures r.fs.Keys == fs.Keys || r.fs.Keys == fs.Keys + {cfg.rawPath}
    ensures forall p :: p in fs && p != cfg.rawPath ==> p in r.fs && r.fs[p] == fs[p]
    ensures cfg.scrapingUrl in web && web[cfg.scrapingUrl].status == 200 ==> cfg.rawPath in r.fs
  {
    if cfg.scrapingUrl !in web then Crawl(fs, 0, Failed(FetchFailed(cfg.scrapingUrl)))
    else if web[cfg.scrapingUrl].status != 200 then Crawl(fs, 0, NotConnected)
    else CrawlFrom(cfg, web, MakeDirs(fs, cfg.rawPath), web[cfg.scrapingUrl], 0, fuel)
  }

  /** Saving two runs of links one after the other is saving their concatenation. */
  lemma {:induction false} ProcessArticlesAppend(cfg: IngestionConfig, web: Web, fs: Fs, count: nat, a: seq<Anchor>, b: seq<Anchor>)
    requires cfg.rawPath in fs
    requires ProcessArticles(cfg, web, fs, count, a).error.None?
    ensures var p := ProcessArticles(cfg, web, fs, count, a);
      ProcessArticles(cfg, web, fs, count, a + b) == ProcessArticles(cfg, web, p.fs, p.count, b)
    decreases |a|
  {
    if a == [] {
      assert a + b == b;
    } else {
      assert (a + b)[0] == a[0];
      assert (a + b)[1..] == a[1..] + b;
      var (fs1, err) := SaveArticle(cfg, web, fs, a[0]);
      ProcessArticlesAppend(cfg, web, fs1, count + 1, a[1..], b);
    }
  }

  /** The page an index page leads to, when its navigation says to follow a reachable link. */
  function Successor(cfg: IngestionConfig, web: Web, page: Page): Option<Page> {
    match NavStep(cfg, page)
    case Follow(url) => if url in web then Some(web[url]) else None
    case _ => None
  }

  /** A page on which the crawl stops without error. */
  predicate Terminal(cfg: IngestionConfig, page: Page) {
    cfg.bodyTag !in page.divs || NavStep(cfg, page).Stop?
  }

  /** Every article link of the page can be saved. */
  predicate ArticlesFetchable(cfg: IngestionConfig, web: Web, page: Page) {
    forall k :: 0 <= k < |BodyAnchors(cfg, page)| ==> Fetchable(cfg, web, BodyAnchors(cfg, page)[k])
  }

  /** A chain of index pages the crawl walks without error: every page's article links can
      be saved, each page but the last has an article list and leads to the next, and the
      last stops the crawl. */
  predicate IsWalk(cfg: IngestionConfig, web: Web, pages: seq<Page>)
    decreases |pages|
  {
    && |pages| > 0
    && ArticlesFetchable(cfg, web, pages[0])
    && if |pages| == 1 then Terminal(cfg, pages[0])
       else cfg.bodyTag in pages[0].divs && Successor(cfg, web, pages[0]) == Some(pages[1]) && IsWalk(cfg, web, pages[1..])
  }

  /** The article links of a chain of index pages, page after page. */
  function AllAnchors(cfg: IngestionConfig, pages: seq<Page>): seq<Anchor> {
    if pages == [] then [] else BodyAnchors(cfg, pages[0]) + AllAnchors(cfg, pages[1..])
  }

  /** One pass of the loop moves on exactly when every link of the page is saved and the
      navigation leads to a reachable page, and halts without error exactly when every link
      is saved and the page stops the crawl; either way with the files its links leave. */
  lemma VisitPageSteps(cfg: IngestionConfig, web: Web, fs: Fs, page: Page, count: nat)
    requires cfg.rawPath in fs
    ensures var r, p := VisitPage(cfg, web, fs, page, count), ProcessArticles(cfg, web, fs, count, BodyAnchors(cfg, page));
      && (r.Continue? <==> cfg.bodyTag in page.divs && ArticlesFetchable(cfg, web, page) && Successor(cfg, web, page).Some?)
      && (r.Continue? ==> r.next == Successor(cfg, web, page).value && r.fs == p.fs && r.count == p.count)
      && (r.Done? && r.crawl.end.Halted? <==> ArticlesFetchable(cfg, web, page) && Terminal(cfg, page))
      && (r.Done? && r.crawl.end.Halted? ==> r.crawl.fs == p.fs && r.crawl.count == p.count)
  {
    ProcessArticlesSucceeds(cfg, web, fs, count, BodyAnchors(cfg, page));
  }

  /** A pass of the loop that moves on leaves the rest of the crawl, one step fewer, to the
      next page. */
  lemma CrawlContinues(cfg: IngestionConfig, web: Web, fs: Fs, page: Page, count: nat, fuel: nat,
                       fs': Fs, count': nat, next: Page)
    requires cfg.rawPath in fs && cfg.rawPath in fs'
    requires VisitPage(cfg, web, fs, page, count) == Continue(fs', count', next)
    ensures CrawlFrom(cfg, web, fs, page, count, fuel + 1) == CrawlFrom(cfg, web, fs', next, count', fuel)
  {
  }

  /** Renaming the step bound; stated apart because equating `fuel` with `fuel' + 1` inside
      the walk lemmas makes the solver unfold the crawl far too often. */
  lemma CrawlFuelShift(cfg: IngestionConfig, web: Web, fs: Fs, page: Page, count: nat, fuel: nat, fuel': nat)
    requires cfg.rawPath in fs && fuel == fuel' + 1
    ensures CrawlFrom(cfg, web, fs, page, count, fuel) == CrawlFrom(cfg, web, fs, page, count, fuel' + 1)
  {
  }

  /** On a page of a walk that is not the last, one pass of the loop saves the page's
      article links (`p`) and moves on to the rest of the walk. */
  lemma CrawlWalkStep(cfg: IngestionConfig, web: Web, fs: Fs, pages: seq<Page>, count: nat, fuel: nat,
                      p: Progress, rest: seq<Page>)
    requires cfg.rawPath in fs
    requires IsWalk(cfg, web, pages) && |pages| > 1
    requires p == ProcessArticles(cfg, web, fs, count, BodyAnchors(cfg, pages[0])) && rest == pages[1..]
    ensures p.count == count + |BodyAnchors(cfg, pages[0])| && p.error.None?
    ensures CrawlFrom(cfg, web, fs, pages[0], count, fuel + 1) == CrawlFrom(cfg, web, p.fs, rest[0], p.count, fuel)
  {
    var page := pages[0];
    assert ArticlesFetchable(cfg, web, page);
    VisitPageSteps(cfg, web, fs, page, count);
    ProcessArticlesSucceeds(cfg, web, fs, count, BodyAnchors(cfg, page));
    assert rest[0] == pages[1];
    assert Successor(cfg, web, page) == Some(pages[1]);
    assert VisitPage(cfg, web, fs, pages[0], count) == Continue(p.fs, p.count, rest[0]);
    CrawlContinues(cfg, web, fs, pages[0], count, fuel, p.fs, p.count, rest[0]);
  }

  /** On the last page of a walk, one pass of the loop saves the page's article links and
      halts. */
  lemma CrawlWalkLast(cfg: IngestionConfig, web: Web, fs: Fs, pages: seq<Page>, count: nat, fuel: nat)
    requires cfg.rawPath in fs
    requires IsWalk(cfg, web, pages) && |pages| == 1 && fuel > 0
    ensures var p, r := ProcessArticles(cfg, web, fs, count, BodyAnchors(cfg, pages[0])), CrawlFrom(cfg, web, fs, pages[0], count, fuel);
      r.end.Halted? && r.fs == p.fs && r.count == p.count == count + |BodyAnchors(cfg, pages[0])|
  {
    var page := pages[0];
    assert ArticlesFetchable(cfg, web, page);
    assert Terminal(cfg, page);
    VisitPageSteps(cfg, web, fs, page, count);
    ProcessArticlesSucceeds(cfg, web, fs, count, BodyAnchors(cfg, page));
  }

  /** Along a walk of N pages, a crawl allowed at least N pages halts, having saved every
      article link of every page, in order, and counted each once. */
  lemma {:induction false} CrawlFollowsWalk(cfg: IngestionConfig, web: Web, fs: Fs, pages: seq<Page>, count: nat, fuel: nat)
    requires cfg.rawPath in fs
    requires IsWalk(cfg, web, pages) && fuel >= |pages|
    ensures CrawlFrom(cfg, web, fs, pages[0], count, fuel).end.Halted?
    ensures CrawlFrom(cfg, web, fs, pages[0], count, fuel).count == count + |AllAnchors(cfg, pages)|
    ensures CrawlFrom(cfg, web, fs, pages[0], count, fuel).fs == ProcessArticles(cfg, web, fs, count, AllAnchors(cfg, pages)).fs
    decreases |pages|
  {
    var body := BodyAnchors(cfg, pages[0]);
    var p := ProcessArticles(cfg, web, fs, count, body);
    if |pages| == 1 {
      assert AllAnchors(cfg, pages) == body + [] == body;
      CrawlWalkLast(cfg, web, fs, pages, count, fuel);
    } else {
      var rest := pages[1..];
      var fuel' :| fuel == fuel' + 1;
      var later := AllAnchors(cfg, rest);
      assert AllAnchors(cfg, pages) == body + later;
      CrawlFuelShift(cfg, web, fs, pages[0], count, fuel, fuel');
      CrawlWalkStep(cfg, web, fs, pages, count, fuel', p, rest);
      CrawlFollowsWalk(cfg, web, p.fs, rest, p.count, fuel');
      ProcessArticlesAppend(cfg, web, fs, count, body, later);
    }
  }

  /** Along a walk of N pages, a crawl allowed fewer than N pages runs out of steps before
      it halts. */
  lemma {:induction false} CrawlWalkNeedsFuel(cfg: IngestionConfig, web: Web, fs: Fs, pages: seq<Page>, count: nat, fuel: nat)
    requires cfg.rawPath in fs
    requires IsWalk(cfg, web, pages) && fuel < |pages|
    ensures CrawlFrom(cfg, web, fs, pages[0], count, fuel).end == OutOfFuel
    decreases fuel
  {
    if fuel > 0 {
      var p := ProcessArticles(cfg, web, fs, count, BodyAnchors(cfg, pages[0]));
      var rest := pages[1..];
      var fuel' :| fuel == fuel' + 1;
      CrawlFuelShift(cfg, web, fs, pages[0], count, fuel, fuel');
      CrawlWalkStep(cfg, web, fs, pages, count, fuel', p, rest);
      CrawlWalkNeedsFuel(cfg, web, p.fs, rest, p.count, fuel');
    }
  }

  /** Conversely, a crawl that halts has walked a chain of at most `fuel` pages. */
  lemma {:induction false} HaltedCrawlWalks(cfg: IngestionConfig, web: Web, fs: Fs, page: Page, count: nat, fuel: nat)
    returns (pages: seq<Page>)
    requires cfg.rawPath in fs
    requires CrawlFrom(cfg, web, fs, page, count, fuel).end.Halted?
    ensures IsWalk(cfg, web, pages) && pages[0] == page && |pages| <= fuel
    decreases fuel
  {
    VisitPageSteps(cfg, web, fs, page, count);
    var v := VisitPage(cfg, web, fs, page, count);
    if v.Done? {
      pages := [page];
    } else {
      var f :| fuel == f + 1;
      CrawlFuelShift(cfg, web, fs, page, count, fuel, f);
      CrawlContinues(cfg, web, fs, page, count, f, v.fs, v.count, v.next);
      var rest := HaltedCrawlWalks(cfg, web, v.fs, v.next, v.count, f);
      pages := [page] + rest;
      assert pages[1..] == rest && pages[1] == v.next;
    }
  }

  /** More fuel changes nothing once a crawl has ended on its own. */
  lemma {:induction false} CrawlFuelMonotone(cfg: IngestionConfig, web: Web, fs: Fs, page: Page, count: nat, fuel: nat, more: nat)
    requires cfg.rawPath in fs
    requires fuel <= more
    requires CrawlFrom(cfg, web, fs, page, count, fuel).end != OutOfFuel
    ensures CrawlFrom(cfg, web, fs, page, count, more) == CrawlFrom(cfg, web, fs, page, count, fuel)
    decreases fuel
  {
    var v := VisitPage(cfg, web, fs, page, count);
    if v.Continue? {
      var f, m :| fuel == f + 1 && more == m + 1;
      CrawlFuelShift(cfg, web, fs, page, count, fuel, f);
      CrawlFuelShift(cfg, web, fs, page, count, more, m);
      CrawlContinues(cfg, web, fs, page, count, f, v.fs, v.count, v.next);
      CrawlContinues(cfg, web, fs, page, count, m, v.fs, v.count, v.next);
      CrawlFuelMonotone(cfg, web, v.fs, v.next, v.count, f, m);
    }
  }
}

=== FILE: text.dfy ===
/** Character classes and string helpers shared by the scraper and the normaliser. */
module Text {

  /** The regular-expression class `[A-Za-z0-9]`. */
  predicate IsAsciiAlnum(c: char) {
    ('A' <= c <= 'Z') || ('a' <= c <= 'z') || ('0' <= c <= '9')
  }

  /** Python's `\s` in a str pattern: exactly the code points for which `str.isspace()` holds. */
  predicate IsSpace(c: char) {
    || c == ' '
    || ('\t' <= c <= '\r')
    || ('\U{1C}' <= c <= '\U{1F}')
    || c == '\U{85}' || c == '\U{A0}' || c == '\U{1680}'
    || ('\U{2000}' <= c <= '\U{200A}')
    || c == '\U{2028}' || c == '\U{2029}' || c == '\U{202F}' || c == '\U{205F}' || c == '\U{3000}'
  }

  /** On ASCII, `\s` is exactly space, tab, line feed, vertical tab, form feed, carriage
      return and the four separators 0x1C-0x1F; and no character of `[A-Za-z0-9]` is one. */
  lemma IsSpaceAscii(c: char)
    ensures (c as int) < 128 ==> (IsSpace(c) <==> c in " \t\n\U{B}\U{C}\r\U{1C}\U{1D}\U{1E}\U{1F}")
    ensures IsAsciiAlnum(c) ==> !IsSpace(c)
  {
  }

  /** Concatenation of a sequence of strings: `''.join(parts)`, or a run of `write` calls. */
  function Concat(parts: seq<string>): string {
    if parts == [] then [] else parts[0] + Concat(parts[1..])
  }

  lemma {:induction false} ConcatAppend(a: seq<string>, b: seq<string>)
    ensures Concat(a + b) == Concat(a) + Concat(b)
  {
    if a == [] {
      assert a + b == b;
    } else {
      assert (a + b)[1..] == a[1..] + b;
      ConcatAppend(a[1..], b);
    }
  }

  /** Sequence concatenation is associative. Stated apart so that a proof about function
      results can regroup them without the solver unfolding the functions. */
  lemma ConcatAssoc<T>(x: seq<T>, y: seq<T>, z: seq<T>)
    ensures x + (y + z) == (x + y) + z
  {
  }

  /** The non-whitespace characters of `s`, in their original order. */
  function NonSpace(s: string): string {
    if s == [] then [] else (if IsSpace(s[0]) then [] else [s[0]]) + NonSpace(s[1..])
  }

  lemma {:induction false} NonSpaceAppend(a: string, b: string)
    ensures NonSpace(a + b) == NonSpace(a) + NonSpace(b)
  {
    if a == [] {
      assert a + b == b;
    } else {
      assert (a + b)[0] == a[0];
      assert (a + b)[1..] == a[1..] + b;
      NonSpaceAppend(a[1..], b);
    }
  }

  /** Python's `sub in s`: `sub` occurs in `s` as a contiguous block. */
  predicate Contains(s: string, sub: string)
    decreases |s|
  {
    sub <= s || (|s| > 0 && Contains(s[1..], sub))
  }

  /** `sub` occurs in `s` starting at position `i`. */
  predicate OccursAt(s: string, sub: string, i: int) {
    0 <= i <= |s| - |sub| && s[i..i + |sub|] == sub
  }

  /** `sub in s` holds exactly when `sub` starts at some position of `s`. */
  lemma {:induction false} ContainsAt(s: string, sub: string)
    ensures Contains(s, sub) <==> exists i :: OccursAt(s, sub, i)
    decreases |s|
  {
    if sub <= s {
      assert OccursAt(s, sub, 0);
    } else if |s| > 0 {
      ContainsAt(s[1..], sub);
      if exists i :: OccursAt(s, sub, i) {
        var i :| OccursAt(s, sub, i);
        OccursLater(s, sub, i);
      }
      if Contains(s[1..], sub) {
        var i :| OccursAt(s[1..], sub, i);
        OccursInTail(s, sub, i);
      }
    }
  }

  /** An occurrence in the tail of `s` is an occurrence in `s`, one position further on. */
  lemma OccursInTail(s: string, sub: string, i: int)
    requires |s| > 0 && OccursAt(s[1..], sub, i)
    ensures OccursAt(s, sub, i + 1)
  {
    assert s[1..][i..i + |sub|] == s[i + 1..i + 1 + |sub|];
  }

  /** An occurrence in `s` that is not a prefix is an occurrence in its tail. */
  lemma OccursLater(s: string, sub: string, i: int)
    requires !(sub <= s) && OccursAt(s, sub, i)
    ensures i > 0 && OccursAt(s[1..], sub, i - 1)
  {
    assert s[1..][i - 1..i - 1 + |sub|] == s[i..i + |sub|];
  }
}

=== FILE: titles.dfy ===
/** Turning an article's `title` attribute into the name of its raw file. */
module Titles {
  import opened Text

  /** `a` can be obtained from `b` by deleting characters. */
  predicate IsSubsequence(a: string, b: string)
    decreases |b|
  {
    if a == [] then true
    else if b == [] then false
    else if a[0] == b[0] then IsSubsequence(a[1..], b[1..])
    else IsSubsequence(a, b[1..])
  }

  /** `re.sub(r"[^A-Za-z0-9]", "", title)`: the ASCII letters and digits of the title, in order. */
  function Sanitize(title: string): (r: string)
    ensures forall i :: 0 <= i < |r| ==> IsAsciiAlnum(r[i])
    ensures IsSubsequence(r, title)
  {
    if title == [] then []
    else
      var rest := Sanitize(title[1..]);
      if IsAsciiAlnum(title[0]) then
        assert ([title[0]] + rest)[1..] == rest;
        [title[0]] + rest
      else
        rest
  }

  /** Every letter and digit of the title survives, as often as it occurs; nothing else does. */
  lemma {:induction false} SanitizeCounts(title: string)
    ensures forall c :: multiset(Sanitize(title))[c] == if IsAsciiAlnum(c) then multiset(title)[c] else 0
  {
    if title != [] {
      SanitizeCounts(title[1..]);
      assert title == [title[0]] + title[1..];
    }
  }

  /** A title made only of letters and digits is left as it is. */
  lemma {:induction false} SanitizeKeepsAlnumTitle(title: string)
    requires forall i :: 0 <= i < |title| ==> IsAsciiAlnum(title[i])
    ensures Sanitize(title) == title
  {
    if title != [] {
      SanitizeKeepsAlnumTitle(title[1..]);
    }
  }

  /** Sanitising twice is the same as sanitising once. */
  lemma SanitizeIdempotent(title: string)
    ensures Sanitize(Sanitize(title)) == Sanitize(title)
  {
    SanitizeKeepsAlnumTitle(Sanitize(title));
  }

  /** Sanitising works character by character, so it distributes over concatenation. */
  lemma {:induction false} SanitizeAppend(a: string, b: string)
    ensures Sanitize(a + b) == Sanitize(a) + Sanitize(b)
  {
    if a == [] {
      assert a + b == b;
    } else {
      assert (a + b)[0] == a[0];
      assert (a + b)[1..] == a[1..] + b;
      SanitizeAppend(a[1..], b);
    }
  }

  /** The raw file name `f'{title}.txt'` built from the sanitised title. */
  function FileName(title: string): (r: string)
    ensures |r| >= 4 && r[|r| - 4..] == ".txt"
    ensures forall i :: 0 <= i < |r| - 4 ==> IsAsciiAlnum(r[i])
  {
    Sanitize(title) + ".txt"
  }

  /** Two titles share a raw file exactly when their sanitised forms are equal. */
  lemma FileNameCollision(a: string, b: string)
    ensures FileName(a) == FileName(b) <==> Sanitize(a) == Sanitize(b)
  {
    if FileName(a) == FileName(b) {
      var fa, fb := FileName(a), FileName(b);
      assert Sanitize(a) == fa[..|fa| - 4];
      assert Sanitize(b) == fb[..|fb| - 4];
    }
  }

  lemma SanitizeGoku()
    ensures Sanitize("Goku (") == "Goku"
  {
    SanitizeKeepsAlnumTitle("Goku");
    assert Sanitize(" (") == [];
    SanitizeAppend("Goku", " (");
    assert "Goku" + " (" == "Goku (";
  }

  lemma SanitizeXeno()
    ensures Sanitize("Xeno)") == "Xeno"
  {
    SanitizeKeepsAlnumTitle("Xeno");
    assert Sanitize(")") == [];
    SanitizeAppend("Xeno", ")");
    assert "Xeno" + ")" == "Xeno)";
  }

  /** Titles that differ only in punctuation or spacing collide: "Goku (Xeno)" and "GokuXeno"
      both map to "GokuXeno.txt". */
  lemma PunctuationCollides(a: string, b: string)
    requires a == "Goku (Xeno)" && b == "GokuXeno"
    ensures FileName(a) == FileName(b) == "GokuXeno.txt"
  {
    SanitizeGoku();
    SanitizeXeno();
    SanitizeAppend("Goku (", "Xeno)");
    assert "Goku (" + "Xeno)" == a;
    SanitizeKeepsAlnumTitle(b);
  }
}

=== FILE: wrappers.dfy ===
/** The Option and Result datatypes used across the model. */
module Wrappers {

  /** An optional value: a missing HTML block, a missing attribute, a pending error. */
  datatype Option<+T> = None | Some(value: T)

  /** Either a value or the error that stopped the computation. */
  datatype Result<+T, +E> = Success(value: T) | Failure(error: E)
}
